=== FILE: README.md ===
# Join search, collection cache and storage client — a Dafny model

This project models the core of the `backend-storage` service:

- **the join search** (`handleSearch` in `src/routes/search.ts`). The model covers:
  - how a search request becomes a plan for the external select pipeline: filter, optional record expose, then each join in declared order with its own expose, then `toOne` or `toArray`;
  - the per-record callback each join step carries: the `queryFn` / `queryOne` / `query` / full-scan precedence, and the placeholder rewriting of the join conditions.
- **the condition patcher** (`patchQuery`). It walks a query condition and records one writer per `$`-placeholder. Applying those writers rewrites the condition in place for the current driving record.
- **the collection cache** (`getCollection`, `getCollectionCache` in `src/collections.ts`). Each of the three collection types has its own cache of instances, keyed by name, and the default type is `sql`.
- **the Python storage client** (`storage/main.py`). `__check_res__` turns a non-2xx response into an HTTP exception with a mapped status and a detail. The five wrappers each send one request and pass the response through that check.

Modules, one per file:

| file | module | contents |
|---|---|---|
| common.dfy | `Common` | `Option`, `Result` |
| json.dfy | `JsonValues` | JSON trees, position paths, `NodeAt` / `SetAt` and their algebra, JavaScript truthiness |
| query_patch.dfy | `QueryPatch` | the `patchQuery` walk, its declarative reference, patch application |
| collections.dfy | `Collections` | the three caches, `getCollection`, the prototype-name finding |
| search.dfy | `Search` | join compilation, per-record resolution, the plan and `handleSearch` |
| storage.dfy | `Storage` | `__check_res__` and the client wrappers |

Modelling choices:

- **JSON objects** are sequences of fields in `for...in` order. A location inside a condition is a path of positions.
- **Patches as data.** A recorded patch is the position of the key it writes plus its placeholder text. The code's closure becomes this data, and the source's `new Function` compilation becomes an evaluator parameter `(expression, record) -> value`.
- **Array elements are walked by `patchQuery` itself.** `value.forEach(recursive)` hands every array element to `patchQuery`'s own `for...in` walk. So a string directly inside an array is walked character by character. Each `$` character records a writer that assigns to an index of a string primitive, and that assignment throws a `TypeError` in module (strict) code. The model keeps this behaviour (`CharOfString`, `ReadOnlyString`).
- **In-place patching across records.** A join's conditions are patched in place, one driving record after another. The model threads the current conditions through the records (`Search.Run`) and proves this equals resolving every record against the conditions as the request gave them (`Search.RunIsPerRecord`). A fetch in the model carries its condition as it stood when the fetch was made. The source passes the shared condition object by reference, so this reading assumes each fetch reads its condition before the next record's writers run.
- **The select pipeline is not modelled.** It belongs to the external collection library: filtering, merging joined values and materialising. `handleSearch` is modelled as building a `Plan` value, which `Search.ParsePlan` reads back.

## Model

| member | source | states |
|---|---|---|
| JsonValues.SetAtThenNodeAt | src/routes/search.ts:98 | writing `obj[key]` at an existing location makes that location hold exactly the written value |
| JsonValues.SetAtElsewhere | src/routes/search.ts:98 | a write at one location leaves every location that is neither above nor below it unchanged |
| JsonValues.SetAtOverwrite | src/routes/search.ts:98 | writing the same location twice leaves only the second value |
| JsonValues.SetAtCommute | src/routes/search.ts:63-64 | writes at two locations, neither inside the other, commute, so the order of the recorded writers does not matter between them |
| JsonValues.NothingBelowScalar | src/routes/search.ts:98 | no location that `obj[key] = …` can write lies strictly below a scalar leaf of the tree |
| JsonValues.SetAtKeepsTruthiness | src/routes/search.ts:67-68 | a write strictly below the root never changes whether the condition object is truthy |
| QueryPatch.Walk | src/routes/search.ts:89-101 | the `recursive` walk over an object's keys in order; what it records is characterised by `QueryPatch.WalkSpec` |
| QueryPatch.VisitValue | src/routes/search.ts:92-98 | the three-way branch on a key's value (array, object, `$`-string); characterised by `QueryPatch.VisitValueSpec` |
| QueryPatch.WalkEach | src/routes/search.ts:93 | `value.forEach(recursive)` over an array; characterised by `QueryPatch.WalkEachSpec` |
| QueryPatch.LiftSpec | src/routes/search.ts:92-95 | patches recorded inside a nested value, seen from the parent, are exactly the nested ones under that key, and stay distinct |
| QueryPatch.WalkSpec | src/routes/search.ts:89-101 | the recursive walk records exactly the patches the declarative reference `Records` describes, each once |
| QueryPatch.WalkKeysSpec | src/routes/search.ts:90 | walking keys from position k records exactly the reference patches whose top-level key is at k or later |
| QueryPatch.VisitKeySpec | src/routes/search.ts:91-98 | visiting one key records exactly the reference patches under that key |
| QueryPatch.VisitValueSpec | src/routes/search.ts:92-98 | an array value has each element passed through `recursive`'s `for...in` (objects by key, arrays by index, strings by character); an object value is recursed into; a placeholder string becomes a slot |
| QueryPatch.WalkEachSpec | src/routes/search.ts:93 | `forEach(recursive)` from element i records exactly the reference patches in elements i onwards |
| QueryPatch.PatchQuery | src/routes/search.ts:84-102 | a patch is recorded if and only if the reference describes it, and none is recorded twice |
| QueryPatch.RecordsLocates | src/routes/search.ts:96-98 | a slot patch points at a string leaf that starts with `$` and holds its own expression; a character patch points at a `$` character of a string |
| QueryPatch.PatchQueryIndependent | src/routes/search.ts:90-98 | no recorded location lies inside another one |
| QueryPatch.SlotsApart | src/routes/search.ts:96-98 | two distinct slot patches write locations that are apart |
| QueryPatch.LocInjective | src/routes/search.ts:98 | a written location determines the holder and the key |
| QueryPatch.ApplyPatches | src/routes/search.ts:63-64 | running the writers throws exactly when some recorded patch is a character patch, and the error names the first such patch |
| QueryPatch.ApplyFailureDependsOnPatchesOnly | src/routes/search.ts:63-64 | running the writers throws exactly when a character patch is recorded, whatever the condition, record or evaluator, and always with the same error |
| QueryPatch.ApplyKeepsTruthiness | src/routes/search.ts:63-68 | running the writers never changes whether the condition is truthy |
| QueryPatch.ApplyCommutes | src/routes/search.ts:63-64 | a write apart from every slot commutes with the whole run of writers |
| QueryPatch.ApplyOverwrites | src/routes/search.ts:63-64 | running independent writers for a second record leaves no trace of the first record's values |
| QueryPatch.ApplyKeepsOthers | src/routes/search.ts:63-64 | locations apart from every slot are untouched by the writers |
| QueryPatch.ApplyFillsSlots | src/routes/search.ts:97-98 | after the run each slot holds its expression evaluated on the record |
| QueryPatch.PatchQueryOverwrites | src/routes/search.ts:60-64 | patching a condition for record r1 and then r2 equals patching the original for r2, and repeating the same record changes nothing |
| QueryPatch.PatchQueryRewritesOnlyPlaceholders | src/routes/search.ts:96-98 | each placeholder becomes its value for the record, and every literal leaf is left as it was |
| QueryPatch.NoDollarNoPatches | src/routes/search.ts:96 | a condition with no `$` anywhere gets no writers |
| QueryPatch.ArrayValueIsNoHolder | src/routes/search.ts:92-93 | an array-valued key is never itself written: its placeholder elements are not rewritten |
| QueryPatch.ArrayStringElementWalkedByCharacter | src/routes/search.ts:92-93 | a `$` inside a string element of an array yields a character patch, the element is never rewritten, and patching fails for every record |
| Collections.CacheFor | src/collections.ts:20-24 | `sql` and `file` each select their own cache, and every other type, including unknown ones, selects the memory cache |
| Collections.ClassFor | src/collections.ts:7-11 | exactly `sql`, `file` and `memory` name a collection class |
| Collections.Store | src/collections.ts:29 | storing writes one name into one cache and leaves the other caches alone |
| Collections.GetCollection | src/collections.ts:26-31 | on success the handle returned is the one cached under the name in the type's cache, and no cached entry changes; it fails exactly on a miss for a type with no class |
| Collections.ClassAgreesWithCache | src/collections.ts:7-11 | a type with a class is cached in the cache of that same class; only `sql`, `file` and `memory` have a class |
| Collections.DefaultTypeIsSql | src/collections.ts:26 | an absent type behaves as `sql` |
| Collections.GetCollectionMemoises | src/collections.ts:28-30 | a second lookup of the same name and type returns the same instance and changes nothing |
| Collections.GetCollectionMissAddsOneEntry | src/collections.ts:29 | a miss adds exactly one entry, under the name, in the type's cache |
| Collections.GetCollectionKeepsValid | src/collections.ts:20-30 | every cached instance stays of its cache's class and named by its key; the instance built on a miss is new |
| Collections.CachesAreDisjoint | src/collections.ts:3-5 | the same name under two types with different caches gives two different instances |
| Collections.GetCollectionAsWritten | src/collections.ts:28-29 | an inherited member answers the lookup: nothing is built or cached |
| Collections.PrototypeNameIsNotACollection | src/collections.ts:28-29 | the name `toString` returns `Object.prototype.toString` as written, while the intended lookup builds a collection |
| Collections.AsWrittenAgreesOffPrototype | src/collections.ts:26-31 | for any name that is not an `Object.prototype` member, the written lookup and the intended one agree |
| Search.StrategyOf | src/routes/search.ts:66-69 | a non-empty `queryFn` selects the callback; `queryOne` is used only when truthy; `query` only when truthy and `queryOne` is not |
| Search.CompileJoin | src/routes/search.ts:59-61 | writers are recorded only without `queryFn` and only for truthy conditions, and are the condition's `patchQuery` writers |
| Search.StrategyPrecedence | src/routes/search.ts:66-69 | `queryFn` hides both conditions; a truthy `queryOne` hides `query`; only a join with none of the three scans the collection |
| Search.PatchTemplateKeepsPresence | src/routes/search.ts:63-64 | patching keeps a condition exactly as present and truthy as before; with no writers it stays unchanged |
| Search.QueryFnLeavesTemplates | src/routes/search.ts:59-66 | with `queryFn` the conditions are never touched, and the callback receives the driving record |
| Search.QueryOnePatchedFirst | src/routes/search.ts:63-64 | when the `queryOne` writers throw, that error is the one reported |
| Search.Resolve | src/routes/search.ts:62-70 | the callback throws exactly when a present condition has a character patch; otherwise `searchOne` gets the patched `queryOne`, `search` gets the patched `query` only when `queryOne` is falsy, and a `queryFn` gets the record |
| Search.Run | src/routes/search.ts:62-70 | a successful run makes exactly one fetch per driving record, and with `queryFn` each fetch is the callback on that record |
| Search.FreshFollowsStrategy | src/routes/search.ts:62-70 | each record's fetch follows the join's precedence, with the condition patched for that record |
| Search.TemplateForgets | src/routes/search.ts:62-70 | a condition patched for one record and then for another equals the original patched for the second, because every writer overwrites what the first run wrote |
| Search.ResolveForgets | src/routes/search.ts:62-70 | after one record, resolving the next record against the patched conditions equals resolving it against the originals |
| Search.RunAfterOneRecord | src/routes/search.ts:62-70 | the conditions left by one record do not change the rest of the run |
| Search.RunIsPerRecord | src/routes/search.ts:62-70 | the callback over all driving records gives, record by record, the fetch built from that record's values only |
| Search.ParseJoinsAppend | src/routes/search.ts:57-76 | appending one join's steps, with its own expose right after it, adds exactly that join to the plan read back |
| Search.ParsePlanSplit | src/routes/search.ts:51-55 | a plan starting with the filter and the optional record expose reads back with that filter and expose |
| Search.ExtendsTransitive | src/collections.ts:28-29 | cache growth composes across successive lookups |
| Search.EntriesSurvive | src/collections.ts:28-29 | a join's cached instance stays cached through later lookups |
| Search.AddJoins | src/routes/search.ts:56-77 | the registry only grows; when a join throws, it is a join whose name was not cached and whose type names no class, and every join before it is cached; with known types the loop succeeds, and the plan's joins read back as the request's joins in order, each with its cached instance, compiled callback and own expose |
| Search.CachedClasslessJoinDoesNotStopLaterJoins | src/collections.ts:20-29 | a join with a classless type whose name is already in the memory cache does not throw, so a join after it is cached even when a third join throws |
| Search.HandleSearch | src/routes/search.ts:48-82 | the registry only grows; when a join throws, the source and every join before the throwing one (a join whose name was not cached and whose type names no class) stay cached; with known types it succeeds; the plan starts with `where(query)` on the cached source, reads back as the request, and finishes with `toOne` exactly when `single` is truthy |
| Search.MissesAfterSource | src/routes/search.ts:48-58 | once the source collection is found, a join misses against the registry the source lookup left exactly when it misses in the whole lookup sequence against the original registry |
| Storage.ErrorDetail | storage/main.py:38-44 | with a content type of exactly JSON the detail is the parsed body (a JSON `null` being no detail) and parsing can raise; otherwise it is the non-empty text, else nothing |
| Storage.MappedStatus | storage/main.py:46-49 | the mapper's entry replaces the status; an absent mapper maps nothing |
| Storage.CheckResponse | storage/main.py:11-53 | the response comes back untouched exactly when checking is off or the status is in 200..299; otherwise the mapped status and detail are raised, or the JSON decoding error |
| Storage.UncheckedIsIdentity | storage/main.py:35 | with checking off every response comes back unchanged |
| Storage.AcceptedRangeEdges | storage/main.py:37 | 200 and 299 pass; 199 and 300 raise |
| Storage.AbsentMapperIsEmpty | storage/main.py:46-47 | an absent mapper behaves as the empty one |
| Storage.MapperOnlyRenamesStatus | storage/main.py:46-51 | the mapper never decides whether the check raises, nor the detail |
| Storage.ContentTypeComparedExactly | storage/main.py:40 | a JSON body labelled with a charset parameter is reported by its text |
| Storage.RequestFor | storage/main.py:68-135 | each wrapper's URL is the base URL plus its route; only `get` uses GET; `get` and `set_default_collection_type` send query parameters |
| Storage.SetDefaultType | storage/main.py:122-139 | sends one POST to the default-type route with the type as the `type` query parameter, and returns that response exactly when unchecked or accepted |
| Storage.Call | storage/main.py:56-139 | a wrapper returns its one response exactly when checking is off or the status is accepted |
| Storage.CallIsPassThrough | storage/main.py:65-66 | `save` replacing an absent mapper by `{}` is unobservable: every wrapper is the plain check of its response |
| Storage.RoutesAreDistinct | storage/main.py:68-135 | the five wrappers reach five different URLs |

## Left out

- The select pipeline of the collection library is out of scope, which is also where the two condition objects reach the fetch. This covers driving-query filtering, merging joined values onto records, running expose transforms, `toOne` / `toArray` materialisation and the collection searches themselves. The plan is modelled as data.
- `new Function` compilation and the transforms it produces are modelled only as an evaluator parameter and as code text carried in the plan; JavaScript evaluation is not modelled.
- The HTTP routes (`router.post("/search")` and the others), the request server, transaction ids and the whole Python transport are I/O. The client takes the transport as a parameter.
- `getCollection` takes no `tid`, so the `tid` that `handleSearch` passes is dropped, and the model drops it too. The `setDefaultType` route is not part of this model.
- Asynchrony is not modelled. The model assumes the collection library runs the per-record callbacks one after another in record order, and that each fetch reads its condition object before the next callback patches it. The library's scheduling is not part of this model.
- Search.RunIsPerRecord: rests on that assumption. If callbacks overlapped, a fetch could read a condition already patched for a later record, because the source passes the shared object by reference.
- Search.HandleSearch: uses the corrected own-entry lookup `Collections.GetCollection` from "## Findings". For a source or join name that is an `Object.prototype` member, the code as written passes the inherited member to the pipeline and caches nothing. The model instead builds and caches a collection.
- Search.AddJoins: uses the same corrected lookup for every join.
- JSON objects in the model may repeat a key, which a parsed request body cannot. The properties are proved for all trees, so they hold for the duplicate-free conditions that actually arrive.
- `Collections.GetCollection`: the lookup by `classMap[type]` for the type `"constructor"` reaches `Object`, which the model treats as having no class. A miss for an unknown type is a `NotAConstructor` failure (`new undefined` throws).
- JavaScript enumerates integer-like keys first in `for...in`. The model takes the field order as the enumeration order.
- Numbers are reals, and strings are sequences of characters rather than UTF-16 code units.
- `Storage.CheckResponse`: the Python `check` flag is a boolean, not an arbitrary truthy value; header lookup is taken as already case-insensitive.
- A `join` that is present but not an array, and request bodies that are not objects, are not modelled.
- Only an absent or string `name` and `type` are modelled, for the source and for each join. JavaScript's `type = "sql"` default replaces only `undefined`, so a JSON `null` type bypasses it: `null` reaches `getCollectionCache`, which falls through to the memory cache, and a miss then throws because `classMap[null]` is undefined. The model has no `null` type.

## Findings

| source | as written | input that shows it | evidently intended | confidence | as-written member | corrected member |
|---|---|---|---|---|---|---|
| src/collections.ts:28-29 | `cache[name]` on a plain-object cache also sees `Object.prototype` members, which are truthy, so the member is returned and nothing is built | `getCollection("toString", "memory")` returns `Object.prototype.toString` | only own entries count; a missing name builds and caches a new instance | not executed | Collections.GetCollectionAsWritten, Collections.PrototypeNameIsNotACollection | Collections.GetCollection |

=== FILE: collections.dfy ===
/**
 * The collection cache of the storage service (`getCollectionCache`,
 * `getCollection`): three process-wide caches, one per collection type, each
 * mapping a collection name to the one instance built for it. Building an
 * instance is the external collection library's business; here it yields a
 * fresh handle numbered by a counter.
 */
module Collections {
  import opened Common

  datatype CollectionKind = Sql | File | Memory

  /** An instance `new classMap[type](name, true)`; `serial` tells instances apart. */
  datatype Handle = Handle(kind: CollectionKind, name: string, serial: nat)

  /** The three caches and the number of instances built so far. */
  datatype Registry = Registry(
    sql: map<string, Handle>,
    file: map<string, Handle>,
    memory: map<string, Handle>,
    built: nat)

  /** `new classMap[type](...)` with a type that names no collection class throws a TypeError. */
  datatype CollectionError = NotAConstructor(ctype: string)

  /** The type used when the caller passes none. */
  const DefaultType: string := "sql"

  const Empty: Registry := Registry(map[], map[], map[], 0)

  /** `getCollectionCache(type)`: "sql" and "file" have their own caches, anything else shares the memory cache. */
  function CacheFor(ctype: string): (k: CollectionKind)
    ensures k == Sql <==> ctype == "sql"
    ensures k == File <==> ctype == "file"
  {
    if ctype == "sql" then Sql else if ctype == "file" then File else Memory
  }

  /** `classMap[type]`: the collection class a type names, if any. */
  function ClassFor(ctype: string): (c: Option<CollectionKind>)
    ensures c.Some? <==> ctype == "sql" || ctype == "file" || ctype == "memory"
  {
    if ctype == "sql" then Some(Sql)
    else if ctype == "file" then Some(File)
    else if ctype == "memory" then Some(Memory)
    else None
  }

  function Cache(reg: Registry, kind: CollectionKind): map<string, Handle> {
    match kind
    case Sql => reg.sql
    case File => reg.file
    case Memory => reg.memory
  }

  /** `cache[name] = h` in one of the three caches. */
  function Store(reg: Registry, kind: CollectionKind, name: string, h: Handle): (r: Registry)
    ensures Cache(r, kind) == Cache(reg, kind)[name := h]
    ensures forall other :: other != kind ==> Cache(r, other) == Cache(reg, other)
    ensures r.built == reg.built
  {
    match kind
    case Sql => reg.(sql := reg.sql[name := h])
    case File => reg.(file := reg.file[name := h])
    case Memory => reg.(memory := reg.memory[name := h])
  }

  function TypeOrDefault(ctype: Option<string>): string {
    if ctype.Some? then ctype.value else DefaultType
  }

  /** The registry a service starts from and every call keeps: each cache holds
      instances of its own class under their own names, all built before now. */
  ghost predicate Valid(reg: Registry) {
    forall kind, n :: n in Cache(reg, kind) ==>
      Cache(reg, kind)[n].kind == kind && Cache(reg, kind)[n].name == n && Cache(reg, kind)[n].serial < reg.built
  }

  /** Every entry of `a` is still in `b`, unchanged. */
  ghost predicate Extends(a: Registry, b: Registry) {
    forall kind, n :: n in Cache(a, kind) ==> n in Cache(b, kind) && Cache(b, kind)[n] == Cache(a, kind)[n]
  }

  /** `getCollection(name, type = "sql")`: the cached instance if there is one, otherwise
      a new instance of the type's class, cached before it is returned. */
  function GetCollection(reg: Registry, name: string, ctype: Option<string>): (r: Result<(Registry, Handle), CollectionError>)
    ensures r.Success? ==>
              && var (reg', h) := r.value;
              && name in Cache(reg', CacheFor(TypeOrDefault(ctype)))
              && Cache(reg', CacheFor(TypeOrDefault(ctype)))[name] == h
              && Extends(reg, reg')
    ensures r.Failure? <==>
              name !in Cache(reg, CacheFor(TypeOrDefault(ctype))) && ClassFor(TypeOrDefault(ctype)).None?
  {
    var t := TypeOrDefault(ctype);
    var kind := CacheFor(t);
    if name in Cache(reg, kind) then Success((reg, Cache(reg, kind)[name]))
    else match ClassFor(t)
      case None => Failure(NotAConstructor(t))
      case Some(cls) =>
        var h := Handle(cls, name, reg.built);
        Success((Store(reg, kind, name, h).(built := reg.built + 1), h))
  }

  /** A type that names a class is cached under that same class. */
  lemma ClassAgreesWithCache(ctype: string)
    ensures ClassFor(ctype).Some? ==> ClassFor(ctype).value == CacheFor(ctype)
    ensures ClassFor(ctype).None? <==> ctype !in {"sql", "file", "memory"}
  {
  }

  /** Leaving the type out is asking for "sql". */
  lemma DefaultTypeIsSql(reg: Registry, name: string)
    ensures GetCollection(reg, name, None) == GetCollection(reg, name, Some("sql"))
  {
  }

  /** A second call with the same name and type returns the same instance and builds nothing. */
  lemma GetCollectionMemoises(reg: Registry, name: string, ctype: Option<string>)
    requires GetCollection(reg, name, ctype).Success?
    ensures var (reg', h) := GetCollection(reg, name, ctype).value;
            GetCollection(reg', name, ctype) == Success((reg', h))
  {
  }

  /** A miss adds exactly the one entry `cache[type][name]` and builds exactly one
      instance; the other entries and the other two caches are unchanged. */
  lemma GetCollectionMissAddsOneEntry(reg: Registry, name: string, ctype: Option<string>)
    requires name !in Cache(reg, CacheFor(TypeOrDefault(ctype)))
    requires GetCollection(reg, name, ctype).Success?
    ensures var (reg', h) := GetCollection(reg, name, ctype).value;
            && var kind := CacheFor(TypeOrDefault(ctype));
            && Cache(reg', kind) == Cache(reg, kind)[name := h]
            && (forall other :: other != kind ==> Cache(reg', other) == Cache(reg, other))
            && reg'.built == reg.built + 1
            && h == Handle(kind, name, reg.built)
  {
  }

  /** Every call keeps the registry valid, and a miss returns an instance unlike any cached before. */
  lemma GetCollectionKeepsValid(reg: Registry, name: string, ctype: Option<string>)
    requires Valid(reg)
    requires GetCollection(reg, name, ctype).Success?
    ensures Valid(GetCollection(reg, name, ctype).value.0)
    ensures GetCollection(reg, name, ctype).value.1.name == name
    ensures name !in Cache(reg, CacheFor(TypeOrDefault(ctype))) ==>
              forall kind, n :: n in Cache(reg, kind) ==> Cache(reg, kind)[n] != GetCollection(reg, name, ctype).value.1
  {
  }

  /** The same name under two types that select different caches yields two different instances. */
  lemma CachesAreDisjoint(reg: Registry, name: string, t1: string, t2: string)
    requires Valid(reg)
    requires CacheFor(t1) != CacheFor(t2)
    requires GetCollection(reg, name, Some(t1)).Success?
    requires GetCollection(GetCollection(reg, name, Some(t1)).value.0, name, Some(t2)).Success?
    ensures var (reg1, h1) := GetCollection(reg, name, Some(t1)).value;
            var (reg2, h2) := GetCollection(reg1, name, Some(t2)).value;
            h1 != h2 && Cache(reg2, CacheFor(t1))[name] == h1 && Cache(reg2, CacheFor(t2))[name] == h2
  {
    GetCollectionKeepsValid(reg, name, Some(t1));
    var (reg1, h1) := GetCollection(reg, name, Some(t1)).value;
    GetCollectionKeepsValid(reg1, name, Some(t2));
  }

  // ---------------------------------------------------------------------------
  // The lookup as written: the caches are plain objects `{}`

  /** Names every plain object answers through `Object.prototype`. */
  const ObjectPrototypeMembers: set<string> := {
    "constructor", "hasOwnProperty", "isPrototypeOf", "propertyIsEnumerable",
    "toLocaleString", "toString", "valueOf", "__proto__",
    "__defineGetter__", "__defineSetter__", "__lookupGetter__", "__lookupSetter__"
  }

  /** What `cache[name]` yields: an own entry, or an inherited prototype member. */
  datatype Lookup = Own(handle: Handle) | Inherited(member: string)

  /** `getCollection` exactly as written: an inherited member is truthy, so it is
      returned as the "collection" and nothing is built or cached. */
  function GetCollectionAsWritten(reg: Registry, name: string, ctype: Option<string>): (r: Result<(Registry, Lookup), CollectionError>)
    ensures r.Success? && r.value.1.Inherited? ==> r.value.0 == reg && name !in Cache(reg, CacheFor(TypeOrDefault(ctype)))
  {
    var t := TypeOrDefault(ctype);
    var kind := CacheFor(t);
    if name in Cache(reg, kind) then Success((reg, Own(Cache(reg, kind)[name])))
    else if name in ObjectPrototypeMembers then Success((reg, Inherited(name)))
    else match ClassFor(t)
      case None => Failure(NotAConstructor(t))
      case Some(cls) =>
        var h := Handle(cls, name, reg.built);
        Success((Store(reg, kind, name, h).(built := reg.built + 1), Own(h)))
  }

  /** The discrepancy: a collection named "toString" is never built; the caller receives
      `Object.prototype.toString` instead, while the intended lookup builds and caches it. */
  lemma PrototypeNameIsNotACollection()
    ensures GetCollectionAsWritten(Empty, "toString", Some("memory")) == Success((Empty, Inherited("toString")))
    ensures GetCollection(Empty, "toString", Some("memory"))
            == Success((Registry(map[], map[], map["toString" := Handle(Memory, "toString", 0)], 1), Handle(Memory, "toString", 0)))
  {
  }

  /** Away from the prototype's member names the written lookup and the intended one agree. */
  lemma AsWrittenAgreesOffPrototype(reg: Registry, name: string, ctype: Option<string>)
    requires name !in ObjectPrototypeMembers
    ensures GetCollectionAsWritten(reg, name, ctype) ==
            match GetCollection(reg, name, ctype)
            case Success((reg', h)) => Success((reg', Own(h)))
            case Failure(e) => Failure(e)
  {
  }
}

=== FILE: common.dfy ===
/** Failure-compatible wrappers shared by the other modules. */
module Common {

  /** An optional value: `undefined`/absent is `None`. */
  datatype Option<+T> = None | Some(value: T)

  /** The outcome of an operation that may throw: `Failure` carries the exception. */
  datatype Result<+T, +E> = Success(value: T) | Failure(error: E) {

    predicate IsFailure() {
      Failure?
    }

    function PropagateFailure<U>(): Result<U, E>
      requires Failure?
    {
      Failure(error)
    }

    function Extract(): T
      requires Success?
    {
      value
    }
  }
}

=== FILE: json.dfy ===
/**
 * JSON-like values as they arrive in a request body, and navigation into them
 * by position. Query conditions, records and collection contents are all values
 * of this type.
 */
module JsonValues {
  import opened Common

  /** A location inside a value: at an object the field position, at an array the element index. */
  type Path = seq<nat>

  /** An object keeps its fields in the order `for (key in obj)` enumerates them. */
  datatype Json =
    | JNull
    | JBool(b: bool)
    | JNum(n: real)
    | JStr(s: string)
    | JArr(elems: seq<Json>)
    | JObj(fields: seq<Field>)

  datatype Field = Field(key: string, value: Json)

  /** JavaScript truthiness of a value: `null`, `false`, `0` and `""` are falsy. */
  predicate Truthy(j: Json) {
    match j
    case JNull => false
    case JBool(b) => b
    case JNum(n) => n != 0.0
    case JStr(s) => s != ""
    case _ => true
  }

  predicate IsContainer(j: Json) {
    j.JArr? || j.JObj?
  }

  predicate IsPrefix(p: Path, q: Path) {
    |p| <= |q| && q[..|p|] == p
  }

  /** Neither location lies inside the other, so writing one cannot disturb the other. */
  predicate Incomparable(p: Path, q: Path) {
    !IsPrefix(p, q) && !IsPrefix(q, p)
  }

  /** The value found by following `p` from `t`, if the path stays inside the tree. */
  function NodeAt(t: Json, p: Path): Option<Json>
    decreases p
  {
    if p == [] then Some(t)
    else match t
      case JObj(fs) => if p[0] < |fs| then NodeAt(fs[p[0]].value, p[1..]) else None
      case JArr(es) => if p[0] < |es| then NodeAt(es[p[0]], p[1..]) else None
      case _ => None
  }

  /** `t` with the value at `p` overwritten by `v` (`obj[key] = v`); a path leaving the tree changes nothing. */
  function SetAt(t: Json, p: Path, v: Json): Json
    decreases p
  {
    if p == [] then v
    else match t
      case JObj(fs) =>
        if p[0] < |fs| then JObj(fs[p[0] := Field(fs[p[0]].key, SetAt(fs[p[0]].value, p[1..], v))]) else t
      case JArr(es) =>
        if p[0] < |es| then JArr(es[p[0] := SetAt(es[p[0]], p[1..], v)]) else t
      case _ => t
  }

  /** After a write at a location inside the tree, that location holds the written value. */
  lemma {:induction false} SetAtThenNodeAt(t: Json, p: Path, v: Json)
    requires NodeAt(t, p).Some?
    ensures NodeAt(SetAt(t, p, v), p) == Some(v)
    decreases p
  {
    if p != [] {
      match t
      case JObj(fs) => SetAtThenNodeAt(fs[p[0]].value, p[1..], v);
      case JArr(es) => SetAtThenNodeAt(es[p[0]], p[1..], v);
    }
  }

  /** A write leaves every location outside its own subtree and off its own path unchanged. */
  lemma {:induction false} SetAtElsewhere(t: Json, p: Path, q: Path, v: Json)
    requires Incomparable(p, q)
    ensures NodeAt(SetAt(t, p, v), q) == NodeAt(t, q)
    decreases p
  {
    assert p != [] && q != [];
    if p[0] == q[0] {
      IncomparableTails(p, q);
      match t
      case JObj(fs) =>
        if p[0] < |fs| {
          SetAtElsewhere(fs[p[0]].value, p[1..], q[1..], v);
        }
      case JArr(es) =>
        if p[0] < |es| {
          SetAtElsewhere(es[p[0]], p[1..], q[1..], v);
        }
      case _ =>
    }
  }

  /** A second write to the same location replaces the first completely. */
  lemma {:induction false} SetAtOverwrite(t: Json, p: Path, a: Json, b: Json)
    ensures SetAt(SetAt(t, p, a), p, b) == SetAt(t, p, b)
    decreases p
  {
    if p != [] {
      var i, rest := p[0], p[1..];
      match t
      case JObj(fs) =>
        if i < |fs| {
          var f := Field(fs[i].key, SetAt(fs[i].value, rest, a));
          assert SetAt(t, p, a) == JObj(fs[i := f]);
          SetAtOverwrite(fs[i].value, rest, a, b);
          assert fs[i := f][i := Field(fs[i].key, SetAt(fs[i].value, rest, b))]
              == fs[i := Field(fs[i].key, SetAt(fs[i].value, rest, b))];
        }
      case JArr(es) =>
        if i < |es| {
          assert SetAt(t, p, a) == JArr(es[i := SetAt(es[i], rest, a)]);
          SetAtOverwrite(es[i], rest, a, b);
          assert es[i := SetAt(es[i], rest, a)][i := SetAt(es[i], rest, b)]
              == es[i := SetAt(es[i], rest, b)];
        }
      case _ =>
    }
  }

  /** Writes to independent locations commute. */
  lemma {:induction false} SetAtCommute(t: Json, p: Path, q: Path, a: Json, b: Json)
    requires Incomparable(p, q)
    ensures SetAt(SetAt(t, p, a), q, b) == SetAt(SetAt(t, q, b), p, a)
    decreases p
  {
    assert p != [] && q != [];
    if p[0] != q[0] {
      SetAtCommuteSiblings(t, p, q, a, b);
    } else if t.JObj? && p[0] < |t.fields| {
      IncomparableTails(p, q);
      SetAtCommute(t.fields[p[0]].value, p[1..], q[1..], a, b);
      SetAtDescend(t, p, q, a, b);
      SetAtDescend(t, q, p, b, a);
    } else if t.JArr? && p[0] < |t.elems| {
      IncomparableTails(p, q);
      SetAtCommute(t.elems[p[0]], p[1..], q[1..], a, b);
      SetAtDescend(t, p, q, a, b);
      SetAtDescend(t, q, p, b, a);
    }
  }

  lemma IncomparableTails(p: Path, q: Path)
    requires Incomparable(p, q) && p != [] && q != [] && p[0] == q[0]
    ensures Incomparable(p[1..], q[1..])
  {
  }

  /** Two writes below the same child of a container are two writes inside that child. */
  lemma SetAtDescend(t: Json, p: Path, q: Path, a: Json, b: Json)
    requires p != [] && q != [] && p[0] == q[0]
    requires (t.JObj? && p[0] < |t.fields|) || (t.JArr? && p[0] < |t.elems|)
    ensures t.JObj? ==>
              SetAt(SetAt(t, p, a), q, b) ==
              JObj(t.fields[p[0] := Field(t.fields[p[0]].key, SetAt(SetAt(t.fields[p[0]].value, p[1..], a), q[1..], b))])
    ensures t.JArr? ==>
              SetAt(SetAt(t, p, a), q, b) ==
              JArr(t.elems[p[0] := SetAt(SetAt(t.elems[p[0]], p[1..], a), q[1..], b)])
  {
  }

  lemma SetAtCommuteSiblings(t: Json, p: Path, q: Path, a: Json, b: Json)
    requires p != [] && q != [] && p[0] != q[0]
    ensures SetAt(SetAt(t, p, a), q, b) == SetAt(SetAt(t, q, b), p, a)
  {
    if t.JObj? {
      SiblingsInObject(t.fields, p, q, a, b);
    } else if t.JArr? {
      SiblingsInArray(t.elems, p, q, a, b);
    }
  }

  lemma SiblingsInObject(fs: seq<Field>, p: Path, q: Path, a: Json, b: Json)
    requires p != [] && q != [] && p[0] != q[0]
    ensures SetAt(SetAt(JObj(fs), p, a), q, b) == SetAt(SetAt(JObj(fs), q, b), p, a)
  {
    var i, j := p[0], q[0];
    if i < |fs| && j < |fs| {
      var x := Field(fs[i].key, SetAt(fs[i].value, p[1..], a));
      var y := Field(fs[j].key, SetAt(fs[j].value, q[1..], b));
      assert SetAt(JObj(fs), p, a) == JObj(fs[i := x]);
      assert SetAt(JObj(fs), q, b) == JObj(fs[j := y]);
      assert fs[i := x][j] == fs[j];
      assert fs[j := y][i] == fs[i];
      assert fs[i := x][j := y] == fs[j := y][i := x];
    }
  }

  lemma SiblingsInArray(es: seq<Json>, p: Path, q: Path, a: Json, b: Json)
    requires p != [] && q != [] && p[0] != q[0]
    ensures SetAt(SetAt(JArr(es), p, a), q, b) == SetAt(SetAt(JArr(es), q, b), p, a)
  {
    var i, j := p[0], q[0];
    if i < |es| && j < |es| {
      var x := SetAt(es[i], p[1..], a);
      var y := SetAt(es[j], q[1..], b);
      assert SetAt(JArr(es), p, a) == JArr(es[i := x]);
      assert SetAt(JArr(es), q, b) == JArr(es[j := y]);
      assert es[i := x][j] == es[j];
      assert es[j := y][i] == es[i];
      assert es[i := x][j := y] == es[j := y][i := x];
    }
  }

  /** Nothing lies below a scalar: a path that passes through one leaves the tree. */
  lemma {:induction false} NothingBelowScalar(t: Json, p: Path, q: Path)
    requires NodeAt(t, p).Some? && !IsContainer(NodeAt(t, p).value)
    requires IsPrefix(p, q) && p != q
    ensures NodeAt(t, q).None?
    decreases p
  {
    if p == [] {
      assert q != [];
    } else {
      assert q[0] == p[0] && q[1..][..|p[1..]|] == p[1..];
      match t
      case JObj(fs) => NothingBelowScalar(fs[p[0]].value, p[1..], q[1..]);
      case JArr(es) => NothingBelowScalar(es[p[0]], p[1..], q[1..]);
    }
  }

  /** A write strictly below the root keeps the root's kind, hence its truthiness. */
  lemma SetAtKeepsTruthiness(t: Json, p: Path, v: Json)
    requires p != []
    ensures Truthy(SetAt(t, p, v)) == Truthy(t)
  {
  }
}

=== FILE: query_patch.dfy ===
/**
 * The placeholder patcher of the join search (`patchQuery`). The walk visits
 * every key of a query condition; a string value whose first character is `$`
 * is compiled once, and a closure is recorded that later overwrites that slot
 * with the placeholder evaluated against the driving record.
 *
 * The walk is modelled as written: an array that is the value of a key is not
 * walked itself; `forEach(recursive)` walks each ELEMENT, so an object or array
 * element is walked by its keys, while a string element is walked by its
 * characters. Each `$` character of such a string yields a closure that assigns
 * to an index of a string primitive, which throws a TypeError in strict-mode
 * module code; `CharOfString` stands for that closure.
 */
module QueryPatch {
  import opened Common
  import opened JsonValues

  /** What a recorded closure writes: a compiled placeholder, or (for a `$` character
      of a walked string) an assignment to a read-only string index. */
  datatype Target = Slot(expr: string) | CharOfString

  /** One recorded closure `obj[key] = fn(record)`, where `obj` is the node at `holder`. */
  datatype Patch = Patch(holder: Path, key: nat, target: Target)

  /** The TypeError thrown when a closure assigns to a character of a string. */
  datatype PatchError = ReadOnlyString(holder: Path, index: nat)

  /** A compiled placeholder applied to a driving record; opaque and total here. */
  type Evaluator = (string, Json) -> Json

  /** The slot a patch writes. */
  function Loc(p: Patch): Path {
    p.holder + [p.key]
  }

  predicate IsPlaceholder(v: Json) {
    v.JStr? && |v.s| > 0 && v.s[0] == '$'
  }

  /** A value the walk must leave alone: a scalar that is not a placeholder. */
  predicate IsLiteral(v: Json) {
    !IsContainer(v) && !IsPlaceholder(v)
  }

  predicate HasDollar(v: Json) {
    v.JStr? && '$' in v.s
  }

  /** The number of keys `for (key in x)` enumerates: fields, indices or characters. */
  function NumKeys(x: Json): nat {
    match x
    case JObj(fs) => |fs|
    case JArr(es) => |es|
    case JStr(s) => |s|
    case _ => 0
  }

  function Under(k: nat, p: Patch): Patch {
    p.(holder := [k] + p.holder)
  }

  function Down(p: Patch): Patch
    requires p.holder != []
  {
    p.(holder := p.holder[1..])
  }

  /** The key of the walked node under which a patch was found. */
  function Pos(p: Patch): nat {
    if p.holder == [] then p.key else p.holder[0]
  }

  /** Patches found below key `k`, re-rooted at the node that holds `k`. */
  function Lift(k: nat, ps: seq<Patch>): (r: seq<Patch>)
    ensures |r| == |ps|
    ensures forall i :: 0 <= i < |ps| ==> r[i] == Under(k, ps[i])
  {
    seq(|ps|, i requires 0 <= i < |ps| => Under(k, ps[i]))
  }

  ghost predicate Distinct(ps: seq<Patch>) {
    forall i, j :: 0 <= i < j < |ps| ==> ps[i] != ps[j]
  }

  // ---------------------------------------------------------------------------
  // The walk, as written

  /** `recursive(x)`: every key of `x` in enumeration order. */
  function Walk(x: Json): seq<Patch>
    decreases x, 1
  {
    WalkKeys(x, 0)
  }

  function WalkKeys(x: Json, k: nat): seq<Patch>
    decreases x, 0, NumKeys(x) - k
  {
    if k >= NumKeys(x) then [] else VisitKey(x, k) + WalkKeys(x, k + 1)
  }

  /** One iteration of `for (key in obj)`: a string's key holds a one-character string. */
  function VisitKey(x: Json, k: nat): seq<Patch>
    requires k < NumKeys(x)
    decreases x, 0, 0
  {
    match x
    case JStr(s) => if s[k] == '$' then [Patch([], k, CharOfString)] else []
    case JObj(fs) => VisitValue(fs[k].value, k)
    case JArr(es) => VisitValue(es[k], k)
    case _ => []
  }

  /** The branches on `value = obj[key]`: arrays element by element, objects (and `null`)
      recursively, placeholder strings recorded. */
  function VisitValue(v: Json, k: nat): seq<Patch>
    decreases v, 2
  {
    match v
    case JArr(_) => Lift(k, WalkEach(v, 0))
    case JObj(_) => Lift(k, Walk(v))
    case _ => if IsPlaceholder(v) then [Patch([], k, Slot(v.s))] else []
  }

  /** `value.forEach(recursive)`. */
  function WalkEach(arr: Json, i: nat): seq<Patch>
    requires arr.JArr?
    decreases arr, 1, |arr.elems| - i
  {
    if i >= |arr.elems| then [] else Lift(i, Walk(arr.elems[i])) + WalkEach(arr, i + 1)
  }

  // ---------------------------------------------------------------------------
  // Which closures the walk records, stated by location

  /** The patch recorded directly for a key whose value is `v`. */
  function DirectValue(v: Json): Option<Target> {
    if IsPlaceholder(v) then Some(Slot(v.s)) else None
  }

  /** The patch recorded directly at key `k` of a walked node `x`. */
  function DirectTarget(x: Json, k: nat): Option<Target> {
    match x
    case JStr(s) => if k < |s| && s[k] == '$' then Some(CharOfString) else None
    case JObj(fs) => if k < |fs| then DirectValue(fs[k].value) else None
    case JArr(es) => if k < |es| then DirectValue(es[k]) else None
    case _ => None
  }

  /** `p` is recorded when the walk starts at `x`: its holder is reached from `x`
      through walked nodes, and its key carries the recorded target. */
  ghost predicate Records(x: Json, p: Patch)
    decreases |p.holder|, 0
  {
    if p.holder == [] then DirectTarget(x, p.key) == Some(p.target)
    else match x
      case JObj(fs) => p.holder[0] < |fs| && Enters(fs[p.holder[0]].value, Down(p))
      case JArr(es) => p.holder[0] < |es| && Enters(es[p.holder[0]], Down(p))
      case _ => false
  }

  /** The walk continues from a key whose value is `v`: an object is walked itself,
      an array through each of its elements, nothing else is entered. */
  ghost predicate Enters(v: Json, p: Patch)
    decreases |p.holder|, 1
  {
    match v
    case JObj(_) => Records(v, p)
    case JArr(es) => p.holder != [] && p.holder[0] < |es| && Records(es[p.holder[0]], Down(p))
    case _ => false
  }

  lemma DistinctConcat(a: seq<Patch>, b: seq<Patch>)
    requires Distinct(a) && Distinct(b)
    requires forall p: Patch :: p in a ==> p !in b
    ensures Distinct(a + b)
  {
    forall i, j | 0 <= i < j < |a + b|
      ensures (a + b)[i] != (a + b)[j]
    {
      if j < |a| {
      } else if i >= |a| {
        assert (a + b)[i] == b[i - |a|] && (a + b)[j] == b[j - |a|];
      } else {
        assert (a + b)[i] in a && (a + b)[j] in b;
      }
    }
  }

  lemma LiftSpec(k: nat, ps: seq<Patch>)
    ensures forall p: Patch :: p in Lift(k, ps) <==> p.holder != [] && p.holder[0] == k && Down(p) in ps
    ensures Distinct(ps) ==> Distinct(Lift(k, ps))
  {
    forall p: Patch | p.holder != [] && p.holder[0] == k && Down(p) in ps
      ensures p in Lift(k, ps)
    {
      var i :| 0 <= i < |ps| && ps[i] == Down(p);
      assert Under(k, Down(p)) == p by {
        assert [k] + p.holder[1..] == p.holder;
      }
      assert Lift(k, ps)[i] == p;
    }
    forall p: Patch | p in Lift(k, ps)
      ensures p.holder != [] && p.holder[0] == k && Down(p) in ps
    {
      var i :| 0 <= i < |ps| && Lift(k, ps)[i] == p;
      assert ([k] + ps[i].holder)[1..] == ps[i].holder;
      assert Down(p) == ps[i];
    }
    if Distinct(ps) {
      forall i, j | 0 <= i < j < |ps|
        ensures Lift(k, ps)[i] != Lift(k, ps)[j]
      {
        assert ([k] + ps[i].holder)[1..] == ps[i].holder;
        assert ([k] + ps[j].holder)[1..] == ps[j].holder;
      }
    }
  }

  lemma {:induction false} WalkSpec(x: Json)
    ensures forall p: Patch :: p in Walk(x) <==> Records(x, p)
    ensures Distinct(Walk(x))
    decreases x, 1
  {
    WalkKeysSpec(x, 0);
  }

  lemma {:induction false} WalkKeysSpec(x: Json, k: nat)
    ensures forall p: Patch :: p in WalkKeys(x, k) <==> Records(x, p) && Pos(p) >= k
    ensures Distinct(WalkKeys(x, k))
    decreases x, 0, NumKeys(x) - k
  {
    if k >= NumKeys(x) {
      forall p: Patch | Records(x, p)
        ensures Pos(p) < NumKeys(x)
      {
      }
    } else {
      VisitKeySpec(x, k);
      WalkKeysSpec(x, k + 1);
      DistinctConcat(VisitKey(x, k), WalkKeys(x, k + 1));
    }
  }

  lemma {:induction false} VisitKeySpec(x: Json, k: nat)
    requires k < NumKeys(x)
    ensures forall p: Patch :: p in VisitKey(x, k) <==> Records(x, p) && Pos(p) == k
    ensures Distinct(VisitKey(x, k))
    decreases x, 0, 0
  {
    match x
    case JStr(s) =>
    case JObj(fs) => VisitValueSpec(fs[k].value, k);
    case JArr(es) => VisitValueSpec(es[k], k);
  }

  lemma {:induction false} VisitValueSpec(v: Json, k: nat)
    ensures forall p: Patch :: p in VisitValue(v, k) <==>
      Pos(p) == k && (if p.holder == [] then DirectValue(v) == Some(p.target) else Enters(v, Down(p)))
    ensures Distinct(VisitValue(v, k))
    decreases v, 2
  {
    match v
    case JArr(_) =>
      WalkEachSpec(v, 0);
      LiftSpec(k, WalkEach(v, 0));
    case JObj(_) =>
      WalkSpec(v);
      LiftSpec(k, Walk(v));
    case _ =>
  }

  lemma {:induction false} WalkEachSpec(arr: Json, i: nat)
    requires arr.JArr?
    ensures forall p: Patch :: p in WalkEach(arr, i) <==>
      p.holder != [] && i <= p.holder[0] < |arr.elems| && Records(arr.elems[p.holder[0]], Down(p))
    ensures Distinct(WalkEach(arr, i))
    decreases arr, 1, |arr.elems| - i
  {
    if i < |arr.elems| {
      WalkSpec(arr.elems[i]);
      LiftSpec(i, Walk(arr.elems[i]));
      WalkEachSpec(arr, i + 1);
      DistinctConcat(Lift(i, Walk(arr.elems[i])), WalkEach(arr, i + 1));
    }
  }

  /** `patchQuery(condition)`: exactly one patch per recorded location, and nothing else. */
  function PatchQuery(condition: Json): (ps: seq<Patch>)
    ensures forall p: Patch :: p in ps <==> Records(condition, p)
    ensures Distinct(ps)
  {
    WalkSpec(condition);
    Walk(condition)
  }

  // ---------------------------------------------------------------------------
  // Where the recorded slots are

  /** A recorded slot holds the placeholder it was compiled from; a recorded
      character patch sits on a `$` of a string. */
  lemma {:induction false} RecordsLocates(x: Json, p: Patch)
    requires Records(x, p)
    ensures p.target.Slot? ==> NodeAt(x, Loc(p)) == Some(JStr(p.target.expr)) && IsPlaceholder(JStr(p.target.expr))
    ensures p.target.CharOfString? ==>
              && NodeAt(x, p.holder).Some?
              && NodeAt(x, p.holder).value.JStr?
              && p.key < |NodeAt(x, p.holder).value.s|
              && NodeAt(x, p.holder).value.s[p.key] == '$'
    decreases |p.holder|
  {
    if p.holder == [] {
      assert Loc(p) == [p.key] && [p.key][1..] == [];
    } else {
      var k := p.holder[0];
      var d := Down(p);
      assert Loc(p) == [k] + Loc(d) by {
        assert p.holder == [k] + d.holder;
      }
      var v := if x.JObj? then x.fields[k].value else x.elems[k];
      assert NodeAt(x, Loc(p)) == NodeAt(v, Loc(d));
      assert NodeAt(x, p.holder) == NodeAt(v, d.holder);
      if v.JObj? {
        RecordsLocates(v, d);
      } else {
        var i := d.holder[0];
        var dd := Down(d);
        assert Loc(d) == [i] + Loc(dd) by {
          assert d.holder == [i] + dd.holder;
        }
        assert NodeAt(v, Loc(d)) == NodeAt(v.elems[i], Loc(dd));
        assert NodeAt(v, d.holder) == NodeAt(v.elems[i], dd.holder);
        RecordsLocates(v.elems[i], dd);
      }
    }
  }

  /** No two slot writes of a list touch each other's location. */
  ghost predicate Independent(ps: seq<Patch>) {
    forall i, j :: 0 <= i < |ps| && 0 <= j < |ps| && i != j && ps[i].target.Slot? && ps[j].target.Slot? ==>
      Incomparable(Loc(ps[i]), Loc(ps[j]))
  }

  lemma PatchQueryIndependent(c: Json)
    ensures Independent(PatchQuery(c))
  {
    var ps := PatchQuery(c);
    forall i, j | 0 <= i < |ps| && 0 <= j < |ps| && i != j && ps[i].target.Slot? && ps[j].target.Slot?
      ensures Incomparable(Loc(ps[i]), Loc(ps[j]))
    {
      SlotsApart(c, ps[i], ps[j]);
    }
  }

  lemma SlotsApart(c: Json, p: Patch, q: Patch)
    requires Records(c, p) && Records(c, q) && p != q
    requires p.target.Slot? && q.target.Slot?
    ensures Incomparable(Loc(p), Loc(q))
  {
    RecordsLocates(c, p);
    RecordsLocates(c, q);
    LocInjective(p, q);
    if Loc(p) != Loc(q) && IsPrefix(Loc(p), Loc(q)) {
      NothingBelowScalar(c, Loc(p), Loc(q));
    } else if Loc(p) != Loc(q) && IsPrefix(Loc(q), Loc(p)) {
      NothingBelowScalar(c, Loc(q), Loc(p));
    }
  }

  lemma LocInjective(p: Patch, q: Patch)
    ensures Loc(p) == Loc(q) ==> p.holder == q.holder && p.key == q.key
  {
    if Loc(p) == Loc(q) {
      assert p.holder == Loc(p)[..|p.holder|];
      assert q.holder == Loc(q)[..|q.holder|];
    }
  }

  // ---------------------------------------------------------------------------
  // Running the closures for a driving record

  /** Patch `i` is the first character patch of the list. */
  predicate FirstCharPatch(ps: seq<Patch>, i: int) {
    && 0 <= i < |ps|
    && ps[i].target.CharOfString?
    && forall j :: 0 <= j < i ==> ps[j].target.Slot?
  }

  lemma CharPatchShift(ps: seq<Patch>)
    requires ps != [] && ps[0].target.Slot?
    ensures (exists i :: 0 <= i < |ps| && ps[i].target.CharOfString?) <==>
            (exists i :: 0 <= i < |ps[1..]| && ps[1..][i].target.CharOfString?)
    ensures forall i :: FirstCharPatch(ps[1..], i) ==> FirstCharPatch(ps, i + 1)
  {
    if exists i :: 0 <= i < |ps| && ps[i].target.CharOfString? {
      var i :| 0 <= i < |ps| && ps[i].target.CharOfString?;
      assert ps[1..][i - 1] == ps[i];
    }
    forall i | FirstCharPatch(ps[1..], i)
      ensures FirstCharPatch(ps, i + 1)
    {
      forall j | 0 <= j < i + 1
        ensures ps[j].target.Slot?
      {
        if j > 0 {
          assert ps[j] == ps[1..][j - 1];
        }
      }
    }
  }

  /** `patches.forEach((fn) => fn(record))` on the condition `t`: slots are overwritten in
      list order; the first character patch throws and stops the run. */
  function ApplyPatches(t: Json, ps: seq<Patch>, record: Json, eval: Evaluator): (r: Result<Json, PatchError>)
    ensures r.Failure? <==> exists i :: 0 <= i < |ps| && ps[i].target.CharOfString?
    ensures r.Failure? ==> exists i :: FirstCharPatch(ps, i) && r.error == ReadOnlyString(ps[i].holder, ps[i].key)
    decreases |ps|
  {
    if ps == [] then Success(t)
    else match ps[0].target
      case CharOfString =>
        assert FirstCharPatch(ps, 0);
        Failure(ReadOnlyString(ps[0].holder, ps[0].key))
      case Slot(e) =>
        CharPatchShift(ps);
        ApplyPatches(SetAt(t, Loc(ps[0]), eval(e, record)), ps[1..], record, eval)
  }

  function WithWrite(r: Result<Json, PatchError>, p: Path, v: Json): Result<Json, PatchError> {
    match r
    case Success(t) => Success(SetAt(t, p, v))
    case Failure(e) => Failure(e)
  }

  ghost predicate ApartFromSlots(q: Path, ps: seq<Patch>) {
    forall i :: 0 <= i < |ps| && ps[i].target.Slot? ==> Incomparable(q, Loc(ps[i]))
  }

  /** Whether and how patching fails depends on the patch list alone: the first
      character patch decides, whatever the condition, record or evaluator. */
  lemma {:induction false} ApplyFailureDependsOnPatchesOnly(t1: Json, t2: Json, ps: seq<Patch>, r1: Json, r2: Json, e1: Evaluator, e2: Evaluator)
    ensures ApplyPatches(t1, ps, r1, e1).Failure? <==> exists i :: 0 <= i < |ps| && ps[i].target.CharOfString?
    ensures ApplyPatches(t1, ps, r1, e1).Failure? ==> ApplyPatches(t1, ps, r1, e1) == ApplyPatches(t2, ps, r2, e2)
    decreases |ps|
  {
    if ps != [] && ps[0].target.Slot? {
      var e := ps[0].target.expr;
      ApplyFailureDependsOnPatchesOnly(SetAt(t1, Loc(ps[0]), e1(e, r1)), SetAt(t2, Loc(ps[0]), e2(e, r2)), ps[1..], r1, r2, e1, e2);
      if exists i :: 0 <= i < |ps| && ps[i].target.CharOfString? {
        var i :| 0 <= i < |ps| && ps[i].target.CharOfString?;
        assert ps[1..][i - 1] == ps[i];
      }
    }
  }

  /** Patching writes strictly below the root, so the condition stays as truthy as it was. */
  lemma {:induction false} ApplyKeepsTruthiness(t: Json, ps: seq<Patch>, r: Json, eval: Evaluator)
    requires ApplyPatches(t, ps, r, eval).Success?
    ensures Truthy(ApplyPatches(t, ps, r, eval).value) == Truthy(t)
    decreases |ps|
  {
    if ps != [] {
      var a := eval(ps[0].target.expr, r);
      SetAtKeepsTruthiness(t, Loc(ps[0]), a);
      ApplyKeepsTruthiness(SetAt(t, Loc(ps[0]), a), ps[1..], r, eval);
    }
  }

  /** A write apart from every slot commutes with the whole patch run. */
  lemma {:induction false} ApplyCommutes(t: Json, ps: seq<Patch>, q: Path, v: Json, r: Json, eval: Evaluator)
    requires ApartFromSlots(q, ps)
    ensures ApplyPatches(SetAt(t, q, v), ps, r, eval) == WithWrite(ApplyPatches(t, ps, r, eval), q, v)
    decreases |ps|
  {
    if ps != [] && ps[0].target.Slot? {
      var a := eval(ps[0].target.expr, r);
      SetAtCommute(t, q, Loc(ps[0]), v, a);
      assert ApartFromSlots(q, ps[1..]) by {
        forall i | 0 <= i < |ps[1..]| && ps[1..][i].target.Slot?
          ensures Incomparable(q, Loc(ps[1..][i]))
        {
          assert ps[1..][i] == ps[i + 1];
        }
      }
      ApplyCommutes(SetAt(t, Loc(ps[0]), a), ps[1..], q, v, r, eval);
    }
  }

  lemma IndependentTail(ps: seq<Patch>)
    requires Independent(ps) && ps != []
    ensures Independent(ps[1..])
    ensures ps[0].target.Slot? ==> ApartFromSlots(Loc(ps[0]), ps[1..])
  {
    if ps[0].target.Slot? {
      forall i | 0 <= i < |ps[1..]| && ps[1..][i].target.Slot?
        ensures Incomparable(Loc(ps[0]), Loc(ps[1..][i]))
      {
        assert ps[1..][i] == ps[i + 1];
      }
    }
    forall i, j | 0 <= i < |ps[1..]| && 0 <= j < |ps[1..]| && i != j && ps[1..][i].target.Slot? && ps[1..][j].target.Slot?
      ensures Incomparable(Loc(ps[1..][i]), Loc(ps[1..][j]))
    {
      assert ps[1..][i] == ps[i + 1] && ps[1..][j] == ps[j + 1];
    }
  }

  /** Patches overwrite, they do not accumulate: running the closures for `r2` on a
      condition already patched for `r1` gives what running them for `r2` on the
      original condition gives. */
  lemma {:induction false} ApplyOverwrites(t: Json, ps: seq<Patch>, r1: Json, r2: Json, eval: Evaluator)
    requires Independent(ps)
    requires ApplyPatches(t, ps, r1, eval).Success?
    ensures ApplyPatches(ApplyPatches(t, ps, r1, eval).value, ps, r2, eval) == ApplyPatches(t, ps, r2, eval)
    decreases |ps|
  {
    if ps != [] {
      var p, rest := ps[0], ps[1..];
      IndependentTail(ps);
      var a1, a2 := eval(p.target.expr, r1), eval(p.target.expr, r2);
      var x := ApplyPatches(t, rest, r1, eval);
      ApplyCommutes(t, rest, Loc(p), a1, r1, eval);
      var u := SetAt(x.value, Loc(p), a1);
      ApplyOverwrites(t, rest, r1, r2, eval);
      SetAtOverwrite(x.value, Loc(p), a1, a2);
      ApplyCommutes(x.value, rest, Loc(p), a2, r2, eval);
      ApplyCommutes(t, rest, Loc(p), a2, r2, eval);
    }
  }

  /** A location apart from every slot keeps its value. */
  lemma {:induction false} ApplyKeepsOthers(t: Json, ps: seq<Patch>, q: Path, r: Json, eval: Evaluator)
    requires ApartFromSlots(q, ps)
    requires ApplyPatches(t, ps, r, eval).Success?
    ensures NodeAt(ApplyPatches(t, ps, r, eval).value, q) == NodeAt(t, q)
    decreases |ps|
  {
    if ps != [] {
      var a := eval(ps[0].target.expr, r);
      SetAtElsewhere(t, Loc(ps[0]), q, a);
      assert ApartFromSlots(q, ps[1..]) by {
        forall i | 0 <= i < |ps[1..]| && ps[1..][i].target.Slot?
          ensures Incomparable(q, Loc(ps[1..][i]))
        {
          assert ps[1..][i] == ps[i + 1];
        }
      }
      ApplyKeepsOthers(SetAt(t, Loc(ps[0]), a), ps[1..], q, r, eval);
    }
  }

  /** Every slot that exists in the condition ends up holding its placeholder's value for `r`. */
  lemma {:induction false} ApplyFillsSlots(t: Json, ps: seq<Patch>, r: Json, eval: Evaluator)
    requires Independent(ps)
    requires ApplyPatches(t, ps, r, eval).Success?
    ensures forall i :: 0 <= i < |ps| && ps[i].target.Slot? && NodeAt(t, Loc(ps[i])).Some? ==>
              NodeAt(ApplyPatches(t, ps, r, eval).value, Loc(ps[i])) == Some(eval(ps[i].target.expr, r))
    decreases |ps|
  {
    if ps != [] {
      var p, rest := ps[0], ps[1..];
      IndependentTail(ps);
      var a := eval(p.target.expr, r);
      var t' := SetAt(t, Loc(p), a);
      ApplyFillsSlots(t', rest, r, eval);
      var u := ApplyPatches(t, ps, r, eval).value;
      forall i | 0 <= i < |ps| && ps[i].target.Slot? && NodeAt(t, Loc(ps[i])).Some?
        ensures NodeAt(u, Loc(ps[i])) == Some(eval(ps[i].target.expr, r))
      {
        if i == 0 {
          SetAtThenNodeAt(t, Loc(p), a);
          ApplyKeepsOthers(t', rest, Loc(p), r, eval);
        } else {
          assert rest[i - 1] == ps[i];
          SetAtElsewhere(t, Loc(p), Loc(ps[i]), a);
        }
      }
    }
  }

  // ---------------------------------------------------------------------------
  // The patcher of one condition, end to end

  /** Running the closures of a condition for `r1` and then for `r2` equals running
      them for `r2` alone; for `r1 == r2` the second run changes nothing. */
  lemma PatchQueryOverwrites(c: Json, r1: Json, r2: Json, eval: Evaluator)
    requires ApplyPatches(c, PatchQuery(c), r1, eval).Success?
    ensures ApplyPatches(ApplyPatches(c, PatchQuery(c), r1, eval).value, PatchQuery(c), r2, eval)
            == ApplyPatches(c, PatchQuery(c), r2, eval)
    ensures ApplyPatches(ApplyPatches(c, PatchQuery(c), r1, eval).value, PatchQuery(c), r1, eval)
            == ApplyPatches(c, PatchQuery(c), r1, eval)
  {
    PatchQueryIndependent(c);
    ApplyOverwrites(c, PatchQuery(c), r1, r2, eval);
    ApplyOverwrites(c, PatchQuery(c), r1, r1, eval);
  }

  /** After patching for `r`, every placeholder slot holds its placeholder evaluated
      against `r`, and every literal (number, boolean, null, string not starting with
      `$`, including the empty string) is where it was. */
  lemma PatchQueryRewritesOnlyPlaceholders(c: Json, r: Json, eval: Evaluator)
    requires ApplyPatches(c, PatchQuery(c), r, eval).Success?
    ensures forall p: Patch :: p in PatchQuery(c) && p.target.Slot? ==>
              NodeAt(ApplyPatches(c, PatchQuery(c), r, eval).value, Loc(p)) == Some(eval(p.target.expr, r))
    ensures forall q: Path :: NodeAt(c, q).Some? && IsLiteral(NodeAt(c, q).value) ==>
              NodeAt(ApplyPatches(c, PatchQuery(c), r, eval).value, q) == NodeAt(c, q)
  {
    var ps := PatchQuery(c);
    var u := ApplyPatches(c, ps, r, eval).value;
    PatchQueryIndependent(c);
    ApplyFillsSlots(c, ps, r, eval);
    forall p: Patch | p in ps && p.target.Slot?
      ensures NodeAt(u, Loc(p)) == Some(eval(p.target.expr, r))
    {
      RecordsLocates(c, p);
      var i :| 0 <= i < |ps| && ps[i] == p;
    }
    forall q: Path | NodeAt(c, q).Some? && IsLiteral(NodeAt(c, q).value)
      ensures NodeAt(u, q) == NodeAt(c, q)
    {
      forall i | 0 <= i < |ps| && ps[i].target.Slot?
        ensures Incomparable(q, Loc(ps[i]))
      {
        RecordsLocates(c, ps[i]);
        if q != Loc(ps[i]) && IsPrefix(q, Loc(ps[i])) {
          NothingBelowScalar(c, q, Loc(ps[i]));
        } else if q != Loc(ps[i]) && IsPrefix(Loc(ps[i]), q) {
          NothingBelowScalar(c, Loc(ps[i]), q);
        }
      }
      ApplyKeepsOthers(c, ps, q, r, eval);
    }
  }

  /** A condition without any `$` in its strings records nothing: the join filter is static. */
  lemma NoDollarNoPatches(c: Json)
    requires forall q: Path :: NodeAt(c, q).Some? ==> !HasDollar(NodeAt(c, q).value)
    ensures PatchQuery(c) == []
  {
    if PatchQuery(c) != [] {
      var p := PatchQuery(c)[0];
      RecordsLocates(c, p);
      if p.target.Slot? {
        assert HasDollar(NodeAt(c, Loc(p)).value);
      } else {
        assert HasDollar(NodeAt(c, p.holder).value);
      }
    }
  }

  /** An array that is a key's value is never a holder: the walk enters its elements. */
  lemma ArrayValueIsNoHolder(c: Json, k: nat, q: Patch)
    ensures c.JObj? && k < |c.fields| && c.fields[k].value.JArr? && Records(c, q) ==> q.holder != [k]
  {
    if q.holder == [k] && c.JObj? && k < |c.fields| && c.fields[k].value.JArr? {
      assert q.holder[0] == k && Down(q).holder == [];
      assert !Enters(c.fields[k].value, Down(q));
    }
  }

  /** A string placed directly in an array that is a key's value is walked by its
      characters: each `$` yields a character patch, the element itself gets no slot,
      and running the closures throws whatever the record. */
  lemma ArrayStringElementWalkedByCharacter(c: Json, k: nat, i: nat, j: nat)
    requires c.JObj? && k < |c.fields|
    requires c.fields[k].value.JArr? && i < |c.fields[k].value.elems|
    requires c.fields[k].value.elems[i].JStr?
    requires j < |c.fields[k].value.elems[i].s| && c.fields[k].value.elems[i].s[j] == '$'
    ensures Patch([k, i], j, CharOfString) in PatchQuery(c)
    ensures forall p: Patch :: p in PatchQuery(c) ==> Loc(p) != [k, i]
    ensures forall r: Json, eval: Evaluator :: ApplyPatches(c, PatchQuery(c), r, eval).Failure?
  {
    var p := Patch([k, i], j, CharOfString);
    assert Down(p).holder == [i] && Down(Down(p)).holder == [];
    assert Records(c, p);
    forall q: Patch | q in PatchQuery(c)
      ensures Loc(q) != [k, i]
    {
      LocInjective(q, Patch([k], i, q.target));
      ArrayValueIsNoHolder(c, k, q);
    }
    forall r: Json, eval: Evaluator
      ensures ApplyPatches(c, PatchQuery(c), r, eval).Failure?
    {
      var n :| 0 <= n < |PatchQuery(c)| && PatchQuery(c)[n] == p;
      ApplyFailureDependsOnPatchesOnly(c, c, PatchQuery(c), r, r, eval, eval);
    }
  }
}

=== FILE: search.dfy ===
/**
 * The join search (`handleSearch`): the plan handed to the external select
 * pipeline, and the per-record resolver each join step carries. The pipeline
 * itself (filtering, merging joined values, exposing, materialising) belongs to
 * the external collection library; here the plan is data.
 */
module Search {
  import opened Common
  import opened JsonValues
  import opened QueryPatch
  import opened Collections

  /** One entry of the request's `join` array. */
  datatype JoinSpec = JoinSpec(
    name: string,
    ctype: Option<string>,
    query: Option<Json>,
    queryOne: Option<Json>,
    queryFn: Option<string>,
    exposeFn: Option<string>)

  /** The request body of a search; an absent `join` is the empty list. */
  datatype SearchBody = SearchBody(
    name: string,
    ctype: Option<string>,
    query: Option<Json>,
    exposeFn: Option<string>,
    single: Option<Json>,
    joins: seq<JoinSpec>)

  /** A condition field that passes the source's truthiness test. */
  predicate Present(c: Option<Json>) {
    c.Some? && Truthy(c.value)
  }

  /** A code-text field that passes the truthiness test: absent and "" are both skipped. */
  function Code(s: Option<string>): Option<string> {
    if s.Some? && s.value != "" then s else None
  }

  // ---------------------------------------------------------------------------
  // One join, one driving record

  /** The four ways a join fetches, in order of precedence. */
  datatype Strategy = ByQueryFn(code: string) | ByQueryOne | ByQuery | FullScan

  function StrategyOf(j: JoinSpec): (s: Strategy)
    ensures s.ByQueryFn? <==> Code(j.queryFn).Some?
    ensures s.ByQueryFn? ==> s.code == j.queryFn.value && s.code != ""
    ensures s == ByQueryOne ==> Present(j.queryOne)
    ensures s == ByQuery ==> Present(j.query) && !Present(j.queryOne)
  {
    if Code(j.queryFn).Some? then ByQueryFn(Code(j.queryFn).value)
    else if Present(j.queryOne) then ByQueryOne
    else if Present(j.query) then ByQuery
    else FullScan
  }

  /** What the join's callback compiles once per request: the optional `queryFn`
      and the two patch lists. */
  datatype Resolver = Resolver(callback: Option<string>, queryOnePatches: seq<Patch>, queryPatches: seq<Patch>)

  /** Patch lists are only built when there is no `queryFn`, and only for present conditions. */
  function CompileJoin(j: JoinSpec): (r: Resolver)
    ensures r.callback == Code(j.queryFn)
    ensures r.callback.Some? ==> r.queryOnePatches == [] && r.queryPatches == []
    ensures !Present(j.queryOne) ==> r.queryOnePatches == []
    ensures !Present(j.query) ==> r.queryPatches == []
    ensures r.callback.None? && Present(j.queryOne) ==> r.queryOnePatches == PatchQuery(j.queryOne.value)
    ensures r.callback.None? && Present(j.query) ==> r.queryPatches == PatchQuery(j.query.value)
  {
    var callback := Code(j.queryFn);
    Resolver(
      callback,
      if callback.None? && Present(j.queryOne) then PatchQuery(j.queryOne.value) else [],
      if callback.None? && Present(j.query) then PatchQuery(j.query.value) else [])
  }

  /** The join's condition objects as they currently stand: the closures patch them in place. */
  datatype Templates = Templates(queryOne: Option<Json>, query: Option<Json>)

  function Initial(j: JoinSpec): Templates {
    Templates(j.queryOne, j.query)
  }

  /** The one fetch the resolver makes against the joined collection. */
  datatype Fetch =
    | CallQueryFn(code: string, record: Json)
    | SearchOne(condition: Json)
    | SearchMany(condition: Json)
    | SearchAll

  function StrategyOfFetch(f: Fetch): Strategy {
    match f
    case CallQueryFn(code, _) => ByQueryFn(code)
    case SearchOne(_) => ByQueryOne
    case SearchMany(_) => ByQuery
    case SearchAll => FullScan
  }

  function PatchTemplate(t: Option<Json>, ps: seq<Patch>, record: Json, eval: Evaluator): Result<Option<Json>, PatchError> {
    match t
    case None => Success(None)
    case Some(c) =>
      match ApplyPatches(c, ps, record, eval)
      case Success(c') => Success(Some(c'))
      case Failure(e) => Failure(e)
  }

  /** Running these writers on this condition throws. */
  predicate Throws(t: Option<Json>, ps: seq<Patch>) {
    t.Some? && exists i :: 0 <= i < |ps| && ps[i].target.CharOfString?
  }

  /** The join callback for one driving record: `queryOne` patches, then `query`
      patches, then exactly one fetch. */
  function Resolve(res: Resolver, st: Templates, record: Json, eval: Evaluator): (r: Result<(Templates, Fetch), PatchError>)
    ensures r.Failure? <==> Throws(st.queryOne, res.queryOnePatches) || Throws(st.query, res.queryPatches)
    ensures r.Success? ==> r.value.0.queryOne.Some? == st.queryOne.Some? && r.value.0.query.Some? == st.query.Some?
    ensures r.Success? && res.callback.Some? ==> r.value.1 == CallQueryFn(res.callback.value, record)
    ensures r.Success? && r.value.1.SearchOne? ==> r.value.0.queryOne == Some(r.value.1.condition)
    ensures r.Success? && r.value.1.SearchMany? ==>
              r.value.0.query == Some(r.value.1.condition) && !Present(r.value.0.queryOne)
  {
    var one :- PatchTemplate(st.queryOne, res.queryOnePatches, record, eval);
    var many :- PatchTemplate(st.query, res.queryPatches, record, eval);
    var fetch :=
      if res.callback.Some? then CallQueryFn(res.callback.value, record)
      else if Present(one) then SearchOne(one.value)
      else if Present(many) then SearchMany(many.value)
      else SearchAll;
    Success((Templates(one, many), fetch))
  }

  /** The callback run for the driving records in turn, sharing the patched templates. */
  function Run(res: Resolver, st: Templates, records: seq<Json>, eval: Evaluator): (r: Result<seq<Fetch>, PatchError>)
    ensures r.Success? ==> |r.value| == |records|
    ensures r.Success? && res.callback.Some? ==>
              forall i :: 0 <= i < |records| ==> r.value[i] == CallQueryFn(res.callback.value, records[i])
    decreases |records|
  {
    if records == [] then Success([])
    else
      var step :- Resolve(res, st, records[0], eval);
      var rest :- Run(res, step.0, records[1..], eval);
      Success([step.1] + rest)
  }

  /** Reference: every record resolved against the join's conditions as the request gave them. */
  function Fresh(j: JoinSpec, record: Json, eval: Evaluator): Result<Fetch, PatchError> {
    var step :- Resolve(CompileJoin(j), Initial(j), record, eval);
    Success(step.1)
  }

  function FreshAll(j: JoinSpec, records: seq<Json>, eval: Evaluator): Result<seq<Fetch>, PatchError>
    decreases |records|
  {
    if records == [] then Success([])
    else
      var f :- Fresh(j, records[0], eval);
      var rest :- FreshAll(j, records[1..], eval);
      Success([f] + rest)
  }

  /** Precedence: a `queryFn` hides both conditions, a present `queryOne` hides `query`,
      and only a join with none of the three scans the whole collection. */
  lemma StrategyPrecedence(j: JoinSpec, q: Option<Json>, q1: Option<Json>)
    ensures Code(j.queryFn).Some? ==> StrategyOf(j.(query := q, queryOne := q1)) == ByQueryFn(j.queryFn.value)
    ensures Present(j.queryOne) ==> StrategyOf(j.(query := q)) == StrategyOf(j)
    ensures StrategyOf(j) == FullScan <==> Code(j.queryFn).None? && !Present(j.queryOne) && !Present(j.query)
  {
  }

  lemma PatchTemplateKeepsPresence(t: Option<Json>, ps: seq<Patch>, record: Json, eval: Evaluator)
    requires PatchTemplate(t, ps, record, eval).Success?
    ensures Present(PatchTemplate(t, ps, record, eval).value) == Present(t)
    ensures ps == [] ==> PatchTemplate(t, ps, record, eval).value == t
  {
    if t.Some? {
      ApplyKeepsTruthiness(t.value, ps, record, eval);
    }
  }

  /** With a `queryFn` the templates are never touched and the callback gets the record. */
  lemma QueryFnLeavesTemplates(j: JoinSpec, st: Templates, record: Json, eval: Evaluator)
    requires Code(j.queryFn).Some?
    ensures Resolve(CompileJoin(j), st, record, eval) == Success((st, CallQueryFn(j.queryFn.value, record)))
  {
  }

  /** The `queryOne` closures run first: if they throw, that error is the one reported,
      whatever the `query` closures would do. */
  lemma QueryOnePatchedFirst(res: Resolver, st: Templates, record: Json, eval: Evaluator)
    requires st.queryOne.Some?
    requires ApplyPatches(st.queryOne.value, res.queryOnePatches, record, eval).Failure?
    ensures Resolve(res, st, record, eval) == Failure(ApplyPatches(st.queryOne.value, res.queryOnePatches, record, eval).error)
  {
  }

  /** Each record's fetch follows the join's strategy, with the condition patched for that record. */
  lemma FreshFollowsStrategy(j: JoinSpec, record: Json, eval: Evaluator)
    requires Fresh(j, record, eval).Success?
    ensures StrategyOfFetch(Fresh(j, record, eval).value) == StrategyOf(j)
    ensures StrategyOf(j) == ByQueryOne ==>
              Fresh(j, record, eval).value.condition ==
              ApplyPatches(j.queryOne.value, PatchQuery(j.queryOne.value), record, eval).value
    ensures StrategyOf(j) == ByQuery ==>
              Fresh(j, record, eval).value.condition ==
              ApplyPatches(j.query.value, PatchQuery(j.query.value), record, eval).value
  {
    var res := CompileJoin(j);
    PatchTemplateKeepsPresence(j.queryOne, res.queryOnePatches, record, eval);
    PatchTemplateKeepsPresence(j.query, res.queryPatches, record, eval);
  }

  /** A template patched for one record, patched again for another, is the original
      patched for the second: every writer overwrites what the first run wrote. */
  lemma TemplateForgets(t: Option<Json>, ps: seq<Patch>, a: Json, b: Json, eval: Evaluator)
    requires ps == [] || (t.Some? && ps == PatchQuery(t.value))
    requires PatchTemplate(t, ps, a, eval).Success?
    ensures PatchTemplate(PatchTemplate(t, ps, a, eval).value, ps, b, eval) == PatchTemplate(t, ps, b, eval)
  {
    if t.Some? {
      if ps == [] {
        PatchTemplateKeepsPresence(t, ps, a, eval);
      } else {
        PatchQueryOverwrites(t.value, a, b, eval);
      }
    }
  }

  /** After one record the patched templates behave exactly like the originals. */
  lemma ResolveForgets(j: JoinSpec, a: Json, b: Json, eval: Evaluator)
    requires Resolve(CompileJoin(j), Initial(j), a, eval).Success?
    ensures Resolve(CompileJoin(j), Resolve(CompileJoin(j), Initial(j), a, eval).value.0, b, eval)
            == Resolve(CompileJoin(j), Initial(j), b, eval)
  {
    var res := CompileJoin(j);
    var s1 := Resolve(res, Initial(j), a, eval).value.0;
    assert s1.queryOne == PatchTemplate(j.queryOne, res.queryOnePatches, a, eval).value;
    assert s1.query == PatchTemplate(j.query, res.queryPatches, a, eval).value;
    TemplateForgets(j.queryOne, res.queryOnePatches, a, b, eval);
    TemplateForgets(j.query, res.queryPatches, a, b, eval);
  }

  lemma {:induction false} RunAfterOneRecord(j: JoinSpec, a: Json, records: seq<Json>, eval: Evaluator)
    requires Resolve(CompileJoin(j), Initial(j), a, eval).Success?
    ensures Run(CompileJoin(j), Resolve(CompileJoin(j), Initial(j), a, eval).value.0, records, eval)
            == Run(CompileJoin(j), Initial(j), records, eval)
    decreases |records|
  {
    if records != [] {
      var res := CompileJoin(j);
      ResolveForgets(j, a, records[0], eval);
      if Resolve(res, Initial(j), records[0], eval).Success? {
        RunAfterOneRecord(j, records[0], records[1..], eval);
      }
    }
  }

  /** Patching in place is unobservable: running the callback over the driving records
      yields, record by record, the fetch that record gets from the conditions as the
      request gave them. A fetch here carries its condition as it stood when the fetch
      was made; reading it as never built from another record's values assumes each
      fetch reads its condition before the next record's writers run, which depends on
      how the collection library schedules the callbacks. */
  lemma {:induction false} RunIsPerRecord(j: JoinSpec, records: seq<Json>, eval: Evaluator)
    ensures Run(CompileJoin(j), Initial(j), records, eval) == FreshAll(j, records, eval)
    decreases |records|
  {
    if records != [] {
      var res := CompileJoin(j);
      if Resolve(res, Initial(j), records[0], eval).Success? {
        RunAfterOneRecord(j, records[0], records[1..], eval);
        RunIsPerRecord(j, records[1..], eval);
      }
    }
  }

  // ---------------------------------------------------------------------------
  // The plan

  datatype Step =
    | Where(condition: Option<Json>)
    | Expose(scope: Handle, code: string)
    | JoinStep(target: Handle, resolver: Resolver)

  datatype Finish = ToOne | ToArray

  datatype Plan = Plan(source: Handle, steps: seq<Step>, finish: Finish)

  /** One join as the plan records it: its collection, its callback and its optional expose. */
  datatype JoinEntry = JoinEntry(target: Handle, resolver: Resolver, expose: Option<string>)

  datatype Shape = Shape(filter: Option<Json>, recordExpose: Option<string>, joins: seq<JoinEntry>)

  /** The steps a join contributes: its join step, immediately followed by its own expose. */
  function JoinSteps(e: JoinEntry): seq<Step> {
    [JoinStep(e.target, e.resolver)] + if e.expose.Some? then [Expose(e.target, e.expose.value)] else []
  }

  /** Reads a run of join steps back, each optionally followed by an expose on the same collection. */
  function ParseJoins(s: seq<Step>): Option<seq<JoinEntry>>
    decreases |s|
  {
    if s == [] then Some([])
    else if !s[0].JoinStep? then None
    else
      var h := s[0].target;
      if |s| >= 2 && s[1].Expose? && s[1].scope == h then
        match ParseJoins(s[2..])
        case None => None
        case Some(rest) => Some([JoinEntry(h, s[0].resolver, Some(s[1].code))] + rest)
      else
        match ParseJoins(s[1..])
        case None => None
        case Some(rest) => Some([JoinEntry(h, s[0].resolver, None)] + rest)
  }

  /** Reads a plan back: a filter first, then an optional expose on the source, then the joins. */
  function ParsePlan(p: Plan): Option<Shape> {
    var s := p.steps;
    if s == [] || !s[0].Where? then None
    else if |s| >= 2 && s[1].Expose? && s[1].scope == p.source then
      match ParseJoins(s[2..])
      case None => None
      case Some(js) => Some(Shape(s[0].condition, Some(s[1].code), js))
    else
      match ParseJoins(s[1..])
      case None => None
      case Some(js) => Some(Shape(s[0].condition, None, js))
  }

  lemma {:induction false} ParseJoinsAppend(s: seq<Step>, e: JoinEntry)
    requires ParseJoins(s).Some?
    ensures ParseJoins(s + JoinSteps(e)) == Some(ParseJoins(s).value + [e])
    decreases |s|
  {
    var t := JoinSteps(e);
    if s == [] {
      assert s + t == t;
      assert ParseJoins(s).value + [e] == [e];
      if e.expose.Some? {
        assert t == [JoinStep(e.target, e.resolver), Expose(e.target, e.expose.value)];
        assert t[2..] == [];
        assert ParseJoins(t[2..]) == Some([]);
        assert e == JoinEntry(e.target, e.resolver, Some(t[1].code));
        assert [e] + [] == [e];
      } else {
        assert t == [JoinStep(e.target, e.resolver)];
        assert t[1..] == [];
        assert ParseJoins(t[1..]) == Some([]);
        assert e == JoinEntry(e.target, e.resolver, None);
        assert [e] + [] == [e];
      }
    } else {
      var h := s[0].target;
      assert (s + t)[0] == s[0];
      if |s| >= 2 && s[1].Expose? && s[1].scope == h {
        var head := JoinEntry(h, s[0].resolver, Some(s[1].code));
        assert (s + t)[1] == s[1];
        assert (s + t)[2..] == s[2..] + t;
        ParseJoinsAppend(s[2..], e);
        var rest := ParseJoins(s[2..]).value;
        assert ParseJoins(s).value == [head] + rest;
        assert ParseJoins(s + t).value == [head] + (rest + [e]);
        assert [head] + (rest + [e]) == ([head] + rest) + [e];
      } else {
        var head := JoinEntry(h, s[0].resolver, None);
        assert (s + t)[1..] == s[1..] + t;
        if |s| >= 2 {
          assert (s + t)[1] == s[1];
        } else {
          assert (s + t)[1] == t[0];
        }
        ParseJoinsAppend(s[1..], e);
        var rest := ParseJoins(s[1..]).value;
        assert ParseJoins(s).value == [head] + rest;
        assert ParseJoins(s + t).value == [head] + (rest + [e]);
        assert [head] + (rest + [e]) == ([head] + rest) + [e];
      }
    }
  }

  /** `h` is the instance cached for this name and type. */
  ghost predicate Cached(reg: Registry, name: string, ctype: Option<string>, h: Handle) {
    var kind := CacheFor(TypeOrDefault(ctype));
    name in Cache(reg, kind) && Cache(reg, kind)[name] == h
  }

  ghost predicate EntryFor(reg: Registry, j: JoinSpec, e: JoinEntry) {
    && Cached(reg, j.name, j.ctype, e.target)
    && e.resolver == CompileJoin(j)
    && e.expose == Code(j.exposeFn)
  }

  /** The plan read back is the request: its filter, its expose, and every join in declared order. */
  ghost predicate Describes(reg: Registry, body: SearchBody, shape: Shape) {
    && shape.filter == body.query
    && shape.recordExpose == Code(body.exposeFn)
    && |shape.joins| == |body.joins|
    && forall i :: 0 <= i < |body.joins| ==> EntryFor(reg, body.joins[i], shape.joins[i])
  }

  predicate KnownType(ctype: Option<string>) {
    ctype.None? || ClassFor(ctype.value).Some?
  }

  /** The first `n` joins all name a type with a class. */
  predicate KnownPrefix(joins: seq<JoinSpec>, n: nat) {
    forall m :: 0 <= m < |joins| && m < n ==> KnownType(joins[m].ctype)
  }

  /** Join `i` is the one that threw: its name is not cached and its type has no class.
      Every join before it is cached. */
  ghost predicate FailedAfter(reg: Registry, joins: seq<JoinSpec>, i: int) {
    && 0 <= i < |joins|
    && ClassFor(TypeOrDefault(joins[i].ctype)).None?
    && !Registered(reg, joins[i].name, joins[i].ctype)
    && forall k :: 0 <= k < i ==> Registered(reg, joins[k].name, joins[k].ctype)
  }

  /** Some join threw, and every join looked up before it is cached. */
  ghost predicate ThrewAt(reg: Registry, joins: seq<JoinSpec>) {
    exists i :: FailedAfter(reg, joins, i)
  }

  /** Some instance is cached for this name and type. */
  ghost predicate Registered(reg: Registry, name: string, ctype: Option<string>) {
    name in Cache(reg, CacheFor(TypeOrDefault(ctype)))
  }

  lemma ExtendsTransitive(a: Registry, b: Registry, c: Registry)
    requires Extends(a, b) && Extends(b, c)
    ensures Extends(a, c)
  {
  }

  /** A cache hit survives every later step, which only adds entries. */
  lemma EntriesSurvive(reg: Registry, reg': Registry, js: seq<JoinSpec>, es: seq<JoinEntry>)
    requires Extends(reg, reg') && |es| <= |js|
    requires forall k :: 0 <= k < |es| ==> EntryFor(reg, js[k], es[k])
    ensures forall k :: 0 <= k < |es| ==> EntryFor(reg', js[k], es[k])
  {
  }

  lemma ParsePlanSplit(source: Handle, filter: Option<Json>, expose: Option<string>, s: seq<Step>, f: Finish)
    requires ParseJoins(s).Some?
    requires expose.Some? ==> expose.value != ""
    ensures var header := [Where(filter)] + if expose.Some? then [Expose(source, expose.value)] else [];
            ParsePlan(Plan(source, header + s, f)) == Some(Shape(filter, expose, ParseJoins(s).value))
  {
    var header := [Where(filter)] + if expose.Some? then [Expose(source, expose.value)] else [];
    var all := header + s;
    assert all[0] == Where(filter);
    if expose.Some? {
      assert all[1] == Expose(source, expose.value);
      assert all[2..] == s;
    } else {
      assert all[1..] == s;
      if s != [] {
        assert all[1] == s[0];
      }
    }
  }

  /** Two lookups that land on the same cache entry: the same name in the same cache. */
  predicate SameEntry(a: JoinSpec, b: JoinSpec) {
    a.name == b.name && CacheFor(TypeOrDefault(a.ctype)) == CacheFor(TypeOrDefault(b.ctype))
  }

  /** Lookup `i` of the sequence finds an instance already cached: one that was in the
      registry before the first lookup, or one that an earlier lookup of the same
      name and cache stored. */
  ghost predicate HitBefore(reg: Registry, lookups: seq<JoinSpec>, i: int)
    requires 0 <= i < |lookups|
  {
    || Registered(reg, lookups[i].name, lookups[i].ctype)
    || exists k :: 0 <= k < i && SameEntry(lookups[k], lookups[i])
  }

  /** Lookup `i` throws if it is reached: its type has no class and nothing is cached for it. */
  ghost predicate Misses(reg: Registry, lookups: seq<JoinSpec>, i: int) {
    && 0 <= i < |lookups|
    && ClassFor(TypeOrDefault(lookups[i].ctype)).None?
    && !HitBefore(reg, lookups, i)
  }

  /** Every entry of `cur` was in `reg` or was stored by one of the first `n` lookups. */
  ghost predicate OnlyFrom(reg: Registry, cur: Registry, lookups: seq<JoinSpec>, n: int)
    requires 0 <= n <= |lookups|
  {
    forall kind, name :: name in Cache(cur, kind) ==>
      || name in Cache(reg, kind)
      || exists k :: 0 <= k < n && lookups[k].name == name && CacheFor(TypeOrDefault(lookups[k].ctype)) == kind
  }

  /** The lookups the source runs: the source collection, then every join in declared order. */
  function Lookups(body: SearchBody): (ls: seq<JoinSpec>)
    ensures |ls| == |body.joins| + 1
    ensures ls[0].name == body.name && ls[0].ctype == body.ctype
    ensures ls[1..] == body.joins
  {
    [JoinSpec(body.name, body.ctype, None, None, None, None)] + body.joins
  }

  /** A successful lookup adds at most its own entry. */
  lemma OnlyFromStep(reg: Registry, cur: Registry, lookups: seq<JoinSpec>, i: int)
    requires 0 <= i < |lookups|
    requires OnlyFrom(reg, cur, lookups, i)
    requires GetCollection(cur, lookups[i].name, lookups[i].ctype).Success?
    ensures OnlyFrom(reg, GetCollection(cur, lookups[i].name, lookups[i].ctype).value.0, lookups, i + 1)
  {
    var j := lookups[i];
    var next := GetCollection(cur, j.name, j.ctype).value.0;
    var kind := CacheFor(TypeOrDefault(j.ctype));
    if j.name !in Cache(cur, kind) {
      GetCollectionMissAddsOneEntry(cur, j.name, j.ctype);
    }
    forall other, name | name in Cache(next, other)
      ensures || name in Cache(reg, other)
              || exists k :: 0 <= k < i + 1 && lookups[k].name == name && CacheFor(TypeOrDefault(lookups[k].ctype)) == other
    {
      if name == j.name && other == kind {
        assert lookups[i].name == name;
      } else {
        assert name in Cache(cur, other);
      }
    }
  }

  /** A lookup that hits is cached once the lookups before it are. */
  lemma HitIsCached(reg: Registry, cur: Registry, lookups: seq<JoinSpec>, i: int)
    requires 0 <= i < |lookups|
    requires Extends(reg, cur)
    requires forall k :: 0 <= k < i ==> Registered(cur, lookups[k].name, lookups[k].ctype)
    requires HitBefore(reg, lookups, i)
    ensures Registered(cur, lookups[i].name, lookups[i].ctype)
  {
    if !Registered(reg, lookups[i].name, lookups[i].ctype) {
      var k :| 0 <= k < i && SameEntry(lookups[k], lookups[i]);
      assert Registered(cur, lookups[k].name, lookups[k].ctype);
    }
  }

  /** A name cached after the first `i` lookups is a hit for lookup `i`. */
  lemma CachedIsHit(reg: Registry, cur: Registry, lookups: seq<JoinSpec>, i: int)
    requires 0 <= i < |lookups|
    requires OnlyFrom(reg, cur, lookups, i)
    requires Registered(cur, lookups[i].name, lookups[i].ctype)
    ensures HitBefore(reg, lookups, i)
  {
    var kind := CacheFor(TypeOrDefault(lookups[i].ctype));
    assert lookups[i].name in Cache(cur, kind);
    if lookups[i].name !in Cache(reg, kind) {
      var k :| 0 <= k < i && lookups[k].name == lookups[i].name && CacheFor(TypeOrDefault(lookups[k].ctype)) == kind;
      assert SameEntry(lookups[k], lookups[i]);
    }
  }

  /** After the first lookup succeeds, a later lookup hits against the registry it left
      exactly when it hits against the original registry with the first lookup counted. */
  lemma HitShift(reg: Registry, cur: Registry, lookups: seq<JoinSpec>, i: int)
    requires 1 <= i < |lookups|
    requires Extends(reg, cur)
    requires Registered(cur, lookups[0].name, lookups[0].ctype)
    requires OnlyFrom(reg, cur, lookups, 1)
    ensures HitBefore(cur, lookups[1..], i - 1) <==> HitBefore(reg, lookups, i)
  {
    var rest := lookups[1..];
    assert rest[i - 1] == lookups[i];
    if HitBefore(cur, rest, i - 1) {
      if Registered(cur, lookups[i].name, lookups[i].ctype) {
        var kind := CacheFor(TypeOrDefault(lookups[i].ctype));
        assert lookups[i].name in Cache(cur, kind);
        if lookups[i].name !in Cache(reg, kind) {
          assert SameEntry(lookups[0], lookups[i]);
        }
      } else {
        var k :| 0 <= k < i - 1 && SameEntry(rest[k], rest[i - 1]);
        assert SameEntry(lookups[k + 1], lookups[i]);
      }
    }
    if HitBefore(reg, lookups, i) {
      if !Registered(reg, lookups[i].name, lookups[i].ctype) {
        var k :| 0 <= k < i && SameEntry(lookups[k], lookups[i]);
        if k == 0 {
          assert Registered(cur, rest[i - 1].name, rest[i - 1].ctype);
        } else {
          assert SameEntry(rest[k - 1], rest[i - 1]);
        }
      }
    }
  }

  /** Every classless lookup among the first `n` is a hit. */
  ghost predicate HitsSoFar(reg: Registry, lookups: seq<JoinSpec>, n: int)
    requires 0 <= n <= |lookups|
  {
    forall m :: 0 <= m < n && ClassFor(TypeOrDefault(lookups[m].ctype)).None? ==> HitBefore(reg, lookups, m)
  }

  /** A successful lookup keeps both loop facts: it was a hit if its type has no class,
      and it adds at most its own entry. */
  lemma LookupSucceeds(reg: Registry, cur: Registry, lookups: seq<JoinSpec>, i: int)
    requires 0 <= i < |lookups|
    requires OnlyFrom(reg, cur, lookups, i) && HitsSoFar(reg, lookups, i)
    requires GetCollection(cur, lookups[i].name, lookups[i].ctype).Success?
    ensures var next := GetCollection(cur, lookups[i].name, lookups[i].ctype).value.0;
            OnlyFrom(reg, next, lookups, i + 1) && HitsSoFar(reg, lookups, i + 1)
  {
    if ClassFor(TypeOrDefault(lookups[i].ctype)).None? {
      CachedIsHit(reg, cur, lookups, i);
    }
    OnlyFromStep(reg, cur, lookups, i);
  }

  /** A lookup that threw after every earlier lookup was cached is a miss. */
  lemma LookupFails(reg: Registry, cur: Registry, lookups: seq<JoinSpec>, i: int)
    requires 0 <= i < |lookups|
    requires Extends(reg, cur)
    requires FailedAfter(cur, lookups, i)
    ensures Misses(reg, lookups, i)
  {
    if HitBefore(reg, lookups, i) {
      HitIsCached(reg, cur, lookups, i);
    }
  }

  /** When every classless lookup hits, none misses. */
  lemma AllHitNoneMiss(reg: Registry, lookups: seq<JoinSpec>)
    requires HitsSoFar(reg, lookups, |lookups|)
    ensures !exists i :: Misses(reg, lookups, i)
  {
  }

  /** Once the source collection is found, a join misses against the registry it left
      exactly when the same join misses in the whole lookup sequence. */
  lemma MissesAfterSource(reg: Registry, body: SearchBody)
    requires GetCollection(reg, body.name, body.ctype).Success?
    ensures var cur := GetCollection(reg, body.name, body.ctype).value.0;
            (exists i :: Misses(cur, body.joins, i)) <==> (exists i :: Misses(reg, Lookups(body), i))
  {
    var cur := GetCollection(reg, body.name, body.ctype).value.0;
    var ls := Lookups(body);
    assert OnlyFrom(reg, reg, ls, 0);
    OnlyFromStep(reg, reg, ls, 0);
    assert !Misses(reg, ls, 0);
    if i :| Misses(cur, body.joins, i) {
      HitShift(reg, cur, ls, i + 1);
      assert ls[i + 1] == body.joins[i];
      assert Misses(reg, ls, i + 1);
    }
    if i :| Misses(reg, ls, i) {
      HitShift(reg, cur, ls, i);
      assert ls[i] == body.joins[i - 1];
      assert Misses(cur, body.joins, i - 1);
    }
  }

  /** The state of the join loop after its first `i` joins: the registry has only grown,
      by at most those joins' entries; the steps read back as their entries, each
      cached; and every classless join so far was a hit. */
  ghost predicate JoinsLooked(reg: Registry, cur: Registry, joins: seq<JoinSpec>, i: int, steps: seq<Step>, entries: seq<JoinEntry>) {
    && 0 <= i <= |joins|
    && Extends(reg, cur)
    && ParseJoins(steps) == Some(entries)
    && |entries| == i
    && (forall k :: 0 <= k < i ==> EntryFor(cur, joins[k], entries[k]))
    && OnlyFrom(reg, cur, joins, i)
    && HitsSoFar(reg, joins, i)
  }

  /** One successful join keeps the loop state, with its steps appended. */
  lemma JoinLooked(reg: Registry, cur: Registry, joins: seq<JoinSpec>, i: int, steps: seq<Step>, entries: seq<JoinEntry>, next: Registry, target: Handle)
    requires JoinsLooked(reg, cur, joins, i, steps, entries) && i < |joins|
    requires GetCollection(cur, joins[i].name, joins[i].ctype) == Success((next, target))
    ensures var e := JoinEntry(target, CompileJoin(joins[i]), Code(joins[i].exposeFn));
            JoinsLooked(reg, next, joins, i + 1, steps + JoinSteps(e), entries + [e])
  {
    var e := JoinEntry(target, CompileJoin(joins[i]), Code(joins[i].exposeFn));
    LookupSucceeds(reg, cur, joins, i);
    ParseJoinsAppend(steps, e);
    ExtendsTransitive(reg, cur, next);
    EntryStep(cur, next, joins, i, entries, e);
  }

  /** The entries so far survive a lookup that only adds, and the new entry joins them. */
  lemma EntryStep(cur: Registry, next: Registry, joins: seq<JoinSpec>, i: int, entries: seq<JoinEntry>, e: JoinEntry)
    requires 0 <= i < |joins| && |entries| == i
    requires Extends(cur, next)
    requires forall k :: 0 <= k < i ==> EntryFor(cur, joins[k], entries[k])
    requires EntryFor(next, joins[i], e)
    ensures forall k :: 0 <= k < i + 1 ==> EntryFor(next, joins[k], (entries + [e])[k])
  {
    EntriesSurvive(cur, next, joins, entries);
  }

  /** A join that throws in the loop state is the first miss. */
  lemma JoinThrew(reg: Registry, cur: Registry, joins: seq<JoinSpec>, i: int, steps: seq<Step>, entries: seq<JoinEntry>)
    requires JoinsLooked(reg, cur, joins, i, steps, entries) && i < |joins|
    requires GetCollection(cur, joins[i].name, joins[i].ctype).Failure?
    ensures FailedAfter(cur, joins, i) && Misses(reg, joins, i)
  {
    assert FailedAfter(cur, joins, i);
    LookupFails(reg, cur, joins, i);
  }

  /** The loop state after every join gives the method's promises on success. */
  lemma JoinsDone(reg: Registry, cur: Registry, joins: seq<JoinSpec>, steps: seq<Step>, entries: seq<JoinEntry>)
    requires JoinsLooked(reg, cur, joins, |joins|, steps, entries)
    ensures !exists i :: Misses(reg, joins, i)
    ensures forall k :: 0 <= k < |joins| ==> Registered(cur, joins[k].name, joins[k].ctype)
  {
    AllHitNoneMiss(reg, joins);
    forall k | 0 <= k < |joins|
      ensures Registered(cur, joins[k].name, joins[k].ctype)
    {
      assert EntryFor(cur, joins[k], entries[k]);
    }
  }

  /** The `for (const join of body.join)` loop: each join's collection is resolved
      in declared order, then its join step and its own expose are appended. A join
      whose type has no class throws, but every collection cached before it stays
      cached, so the registry is returned on both paths. */
  method AddJoins(reg: Registry, joins: seq<JoinSpec>) returns (reg': Registry, r: Result<seq<Step>, CollectionError>)
    ensures Extends(reg, reg')
    ensures KnownPrefix(joins, |joins|) ==> r.Success?
    ensures forall k :: 0 <= k < |joins| && KnownPrefix(joins, k + 1) ==> Registered(reg', joins[k].name, joins[k].ctype)
    ensures r.Failure? ==> ThrewAt(reg', joins)
    ensures r.Failure? <==> exists i :: Misses(reg, joins, i)
    ensures r.Success? ==>
              && ParseJoins(r.value).Some?
              && |ParseJoins(r.value).value| == |joins|
              && forall i :: 0 <= i < |joins| ==> EntryFor(reg', joins[i], ParseJoins(r.value).value[i])
  {
    reg' := reg;
    var steps: seq<Step> := [];
    ghost var entries: seq<JoinEntry> := [];
    var i := 0;
    while i < |joins|
      invariant JoinsLooked(reg, reg', joins, i, steps, entries)
      invariant forall k :: 0 <= k < i ==> Registered(reg', joins[k].name, joins[k].ctype)
    {
      var j := joins[i];
      var found := GetCollection(reg', j.name, j.ctype);
      if found.Failure? {
        JoinThrew(reg, reg', joins, i, steps, entries);
        r := Failure(found.error);
        return;
      }
      var next, target := found.value.0, found.value.1;
      JoinLooked(reg, reg', joins, i, steps, entries, next, target);
      ghost var e := JoinEntry(target, CompileJoin(j), Code(j.exposeFn));
      ghost var before := steps;
      steps := steps + [JoinStep(target, CompileJoin(j))];
      if Code(j.exposeFn).Some? {
        steps := steps + [Expose(target, j.exposeFn.value)];
      }
      assert steps == before + JoinSteps(e);
      entries := entries + [e];
      reg' := next;
      i := i + 1;
    }
    JoinsDone(reg, reg', joins, steps, entries);
    r := Success(steps);
  }

  /** `handleSearch`: resolve the source collection, filter, expose the record if asked,
      add every join in declared order (each followed by its own expose), and finish
      with `toOne` exactly when `single` is truthy. The registry is returned whether or
      not a lookup throws: the collections looked up before the throw stay cached. */
  method HandleSearch(reg: Registry, body: SearchBody) returns (reg': Registry, r: Result<Plan, CollectionError>)
    ensures Extends(reg, reg')
    ensures KnownType(body.ctype) ==> Registered(reg', body.name, body.ctype)
    ensures KnownType(body.ctype) ==>
              forall k :: 0 <= k < |body.joins| && KnownPrefix(body.joins, k + 1) ==>
                Registered(reg', body.joins[k].name, body.joins[k].ctype)
    ensures KnownType(body.ctype) && KnownPrefix(body.joins, |body.joins|) ==> r.Success?
    ensures r.Failure? <==> exists i :: Misses(reg, Lookups(body), i)
    ensures r.Failure? ==>
              || (reg' == reg && ClassFor(TypeOrDefault(body.ctype)).None? && !Registered(reg, body.name, body.ctype))
              || (Registered(reg', body.name, body.ctype) && ThrewAt(reg', body.joins))
    ensures r.Success? ==>
              && Cached(reg', body.name, body.ctype, r.value.source)
              && r.value.steps != [] && r.value.steps[0] == Where(body.query)
              && ParsePlan(r.value).Some?
              && Describes(reg', body, ParsePlan(r.value).value)
              && (r.value.finish == ToOne <==> Present(body.single))
  {
    var got := GetCollection(reg, body.name, body.ctype);
    if got.Failure? {
      LookupFails(reg, reg, Lookups(body), 0);
      reg', r := reg, Failure(got.error);
      return;
    }
    var cur, source := got.value.0, got.value.1;
    var expose := Code(body.exposeFn);
    var steps := [Where(body.query)];
    if expose.Some? {
      steps := steps + [Expose(source, expose.value)];
    }
    var joined;
    reg', joined := AddJoins(cur, body.joins);
    ExtendsTransitive(reg, cur, reg');
    MissesAfterSource(reg, body);
    if joined.Failure? {
      r := Failure(joined.error);
      return;
    }
    ParsePlanSplit(source, body.query, expose, joined.value, ToArray);
    ParsePlanSplit(source, body.query, expose, joined.value, ToOne);
    var finish := if Present(body.single) then ToOne else ToArray;
    r := Success(Plan(source, steps + joined.value, finish));
  }

  /** A join whose type has no class but whose name is already cached does not throw,
      so a later throw still leaves every join between them cached. */
  lemma CachedClasslessJoinDoesNotStopLaterJoins(reg: Registry, x: Handle)
    requires reg.memory == map["x" := x]
    ensures var joins := [
              JoinSpec("x", Some("bogus"), None, None, None, None),
              JoinSpec("y", Some("memory"), None, None, None, None),
              JoinSpec("z", Some("bogus2"), None, None, None, None)];
            forall reg' :: ThrewAt(reg', joins) && Extends(reg, reg') ==> Registered(reg', "y", Some("memory"))
  {
    var joins := [
      JoinSpec("x", Some("bogus"), None, None, None, None),
      JoinSpec("y", Some("memory"), None, None, None, None),
      JoinSpec("z", Some("bogus2"), None, None, None, None)];
    forall reg' | ThrewAt(reg', joins) && Extends(reg, reg')
      ensures Registered(reg', "y", Some("memory"))
    {
      var i :| FailedAfter(reg', joins, i);
      assert "x" in Cache(reg', CacheFor("bogus"));
      assert i == 2;
      assert Registered(reg', joins[1].name, joins[1].ctype);
      assert joins[1].name == "y" && joins[1].ctype == Some("memory");
    }
  }
}

=== FILE: storage.dfy ===
/**
 * The Python client of the storage service: five thin wrappers that send one
 * HTTP request each and pass the response through `__check_res__`. The HTTP
 * transport is a parameter: a function from the request sent to the response
 * received.
 */
module Storage {
  import opened Common
  import opened JsonValues

  const BaseUrl: string := "http://localhost:10001"
  const JsonContentType: string := "application/json"

  /** A response as the check sees it. `contentType` is the `Content-Type` header
      (looked up case-insensitively by the HTTP library); `body` is what parsing the
      body as JSON yields, `None` when parsing raises. */
  datatype Response = Response(status: int, contentType: Option<string>, text: string, body: Option<Json>)

  /** The `detail` of the raised HTTP exception. */
  datatype Detail = NoDetail | JsonDetail(json: Json) | TextDetail(text: string)

  /** What a checked call does: hand back the response untouched, raise an HTTP
      exception, or raise the JSON decoding error of an error body that claims to be
      JSON and is not. */
  datatype Outcome =
    | Returned(response: Response)
    | Raised(status: int, detail: Detail)
    | JsonDecodeError

  /** The status codes the check lets through. */
  predicate Accepted(status: int) {
    200 <= status < 300
  }

  /** The detail of an error response: the parsed body when the content type is
      exactly JSON, else the text when it is non-empty, else nothing. A JSON `null`
      body parses to Python's `None`, the same detail as no detail at all. */
  function ErrorDetail(res: Response): (d: Option<Detail>)
    ensures d.None? <==> res.contentType == Some(JsonContentType) && res.body.None?
    ensures res.contentType == Some(JsonContentType) && res.body.Some? && res.body.value != JNull ==>
              d == Some(JsonDetail(res.body.value))
    ensures res.contentType != Some(JsonContentType) && res.text != "" ==> d == Some(TextDetail(res.text))
    ensures d == Some(NoDetail) <==>
              || (res.contentType != Some(JsonContentType) && res.text == "")
              || (res.contentType == Some(JsonContentType) && res.body == Some(JNull))
  {
    if res.contentType == Some(JsonContentType) then
      match res.body
      case Some(j) => if j == JNull then Some(NoDetail) else Some(JsonDetail(j))
      case None => None
    else if res.text != "" then Some(TextDetail(res.text))
    else Some(NoDetail)
  }

  /** The status reported: the mapper's entry for the received status, if any. */
  function MappedStatus(status: int, mapper: Option<map<int, int>>): (s: int)
    ensures mapper.Some? && status in mapper.value ==> s == mapper.value[status]
    ensures mapper.None? || status !in mapper.value ==> s == status
  {
    var m := if mapper.None? then map[] else mapper.value;
    if status in m then m[status] else status
  }

  /** `__check_res__`. */
  function CheckResponse(res: Response, mapper: Option<map<int, int>>, check: bool): (o: Outcome)
    ensures o.Returned? ==> o.response == res
    ensures o.Returned? <==> !check || Accepted(res.status)
    ensures o.Raised? ==> o.status == MappedStatus(res.status, mapper) && Some(o.detail) == ErrorDetail(res)
    ensures o == JsonDecodeError <==> check && !Accepted(res.status) && ErrorDetail(res).None?
  {
    if check && (res.status >= 300 || res.status < 200) then
      match ErrorDetail(res)
      case None => JsonDecodeError
      case Some(d) => Raised(MappedStatus(res.status, mapper), d)
    else Returned(res)
  }

  /** With checking off every response comes back unchanged, whatever its status. */
  lemma UncheckedIsIdentity(res: Response, mapper: Option<map<int, int>>)
    ensures CheckResponse(res, mapper, false) == Returned(res)
  {
  }

  /** The edges of the accepted range: 200 and 299 pass, 199 and 300 raise. */
  lemma AcceptedRangeEdges(res: Response, mapper: Option<map<int, int>>)
    ensures res.status == 200 || res.status == 299 ==> CheckResponse(res, mapper, true) == Returned(res)
    ensures res.status == 199 || res.status == 300 ==> !CheckResponse(res, mapper, true).Returned?
  {
  }

  /** An absent mapper behaves as the empty one. */
  lemma AbsentMapperIsEmpty(res: Response, check: bool)
    ensures CheckResponse(res, None, check) == CheckResponse(res, Some(map[]), check)
  {
  }

  /** The mapper only renames the status of a raised exception: it never decides
      whether the check raises, nor what the detail is. */
  lemma MapperOnlyRenamesStatus(res: Response, m1: Option<map<int, int>>, m2: Option<map<int, int>>, check: bool)
    ensures CheckResponse(res, m1, check).Returned? == CheckResponse(res, m2, check).Returned?
    ensures CheckResponse(res, m1, check).Raised? == CheckResponse(res, m2, check).Raised?
    ensures CheckResponse(res, m1, check).Raised? ==> CheckResponse(res, m1, check).detail == CheckResponse(res, m2, check).detail
    ensures CheckResponse(res, m1, check).Returned? ==> CheckResponse(res, m1, check) == CheckResponse(res, m2, check)
  {
  }

  /** The content type is compared as a whole string: a JSON body labelled with a
      charset parameter is reported by its text. */
  lemma ContentTypeComparedExactly(status: int, text: string, body: Json)
    requires !Accepted(status) && text != ""
    ensures CheckResponse(Response(status, Some("application/json; charset=utf-8"), text, Some(body)), None, true)
            == Raised(status, TextDetail(text))
  {
  }

  // ---------------------------------------------------------------------------
  // The client wrappers

  datatype Verb = Get | Post

  /** How the payload travels: as a JSON body or as query parameters. */
  datatype Payload = JsonBody(json: Json) | QueryParams(params: Json)

  datatype Request = Request(verb: Verb, url: string, payload: Payload)

  type Transport = Request -> Response

  datatype Endpoint = Save | Search | GetOne | Delete | SetDefaultCollectionType

  /** The path each wrapper posts or gets, below the base URL. */
  function Route(ep: Endpoint): string {
    match ep
    case Save => "/storage/save"
    case Search => "/storage/search"
    case GetOne => "/storage/get"
    case Delete => "/storage/delete"
    case SetDefaultCollectionType => "/storage/collection/default"
  }

  /** The request each wrapper sends for its argument: only `get` uses GET, and only
      `get` and `set_default_collection_type` send query parameters. */
  function RequestFor(ep: Endpoint, arg: Json): (q: Request)
    ensures q.url == BaseUrl + Route(ep)
    ensures q.verb == Get <==> ep == GetOne
    ensures q.payload.QueryParams? <==> ep == GetOne || ep == SetDefaultCollectionType
  {
    var verb := if ep == GetOne then Get else Post;
    var payload := if ep == GetOne || ep == SetDefaultCollectionType then QueryParams(arg) else JsonBody(arg);
    Request(verb, BaseUrl + Route(ep), payload)
  }

  /** `set_default_collection_type` sends its type as the `type` query parameter. */
  function TypeParam(ctype: string): Json {
    JObj([Field("type", JStr(ctype))])
  }

  /** A wrapper call: send the one request, then check the response. `save` alone
      replaces an absent mapper by the empty one first. */
  function Call(ep: Endpoint, arg: Json, mapper: Option<map<int, int>>, check: bool, send: Transport): (o: Outcome)
    ensures o.Returned? ==> o.response == send(RequestFor(ep, arg))
    ensures o.Returned? <==> !check || Accepted(send(RequestFor(ep, arg)).status)
  {
    var m := if ep == Save && mapper.None? then Some(map[]) else mapper;
    CheckResponse(send(RequestFor(ep, arg)), m, check)
  }

  /** `set_default_collection_type(_type)`: a POST to the default-type route carrying
      the type as the `type` query parameter. */
  function SetDefaultType(ctype: string, mapper: Option<map<int, int>>, check: bool, send: Transport): (o: Outcome)
    ensures var q := Request(Post, BaseUrl + "/storage/collection/default", QueryParams(JObj([Field("type", JStr(ctype))])));
            && (o.Returned? ==> o.response == send(q))
            && (o.Returned? <==> !check || Accepted(send(q).status))
  {
    Call(SetDefaultCollectionType, TypeParam(ctype), mapper, check, send)
  }

  /** `save` normalising an absent mapper is unobservable: every wrapper is the same
      pass-through of its one response. */
  lemma CallIsPassThrough(ep: Endpoint, arg: Json, mapper: Option<map<int, int>>, check: bool, send: Transport)
    ensures Call(ep, arg, mapper, check, send) == CheckResponse(send(RequestFor(ep, arg)), mapper, check)
  {
    if ep == Save && mapper.None? {
      AbsentMapperIsEmpty(send(RequestFor(ep, arg)), check);
    }
  }

  /** The five wrappers reach five different routes. */
  lemma RoutesAreDistinct(e1: Endpoint, e2: Endpoint, a1: Json, a2: Json)
    requires e1 != e2
    ensures RequestFor(e1, a1).url != RequestFor(e2, a2).url
  {
    var n := |BaseUrl|;
    assert (BaseUrl + Route(e1))[n..] == Route(e1);
    assert (BaseUrl + Route(e2))[n..] == Route(e2);
  }
}
